=== FILE: README.md ===
# ReportPortal JavaScript client: tree, helpers and item lifecycle in Dafny

This project models the in-memory core of the ReportPortal JavaScript client
and proves properties of it. The client reports test runs to a ReportPortal
server. It hands out temporary ids at once, queues the remote calls, and
keeps one flat tree of records so that later calls can wait for earlier ones.
The model covers three parts:

- **The flat item tree** (`lib/flatTree.js`), in `flat_tree.dfy`.
  - Class `FlatTree.Tree` owns the dictionary from temporary id to record as a `map` field.
  - Its methods reassign that map the way the source mutates its object:
    `AddItem`, `AddChild` and `RemoveAllChildren`, the last with a loop that
    deletes child records one by one.
  - `GetItem` and `GetChildren` are functions.
  - Id allocation (`uniqid`) is "any non-empty id that is not in the tree and is not the parent id".
- **The helpers** (`lib/helpers.js`), in `helpers.dfy`.
  - `FormatName` does the padding and truncation. Names are JavaScript
    strings, sequences of UTF-16 code units, because `length` and `slice`
    count code units; `Utf16` gives the code units of a Dafny string.
  - `WaitForCondition` is the polling loop. The sleep is dropped, and the
    predicate is given as the sequence of its successive answers.
- **The lifecycle controller** (`lib/report-portal-client.js`), in `client.dfy`, `urls.dfy` and `multipart.dfy`.
  - Class `Client.RPClient` owns a `Tree`.
  - Each operation is split into its synchronous part and its queued task:
    - `CreateTempItem`, `FinishTestItem` (the lookup that throws for an unknown id) and `SaveLog` are synchronous;
    - `StartLaunch`, `UpdateLaunch`, `FinishLaunch`, `StartTestItem`, `FinishTestItemTask` and `SaveLogTask` are the queued tasks.
  - Every task method changes the owned tree step by step. It is proved to
    produce exactly the `Step` that a spec function (`StartLaunchSpec`, …)
    computes. A `Step` is the settlement of the returned promise, the remote
    call made (if any) and the new dictionary.
  - The spec functions carry the checks in their order, the error messages,
    the flag changes on success and failure, where records are linked, and
    the URL of each call.
  - `Run` replays any sequence of client steps: the synchronous record
    creations and the queued tasks. It carries the property that a finished
    launch stays finished. Separate lemmas over two consecutive steps show
    that pending records block their dependants and that a parent's finish
    makes a child's later finish fail.
  - `Urls` models `Array.prototype.join('/')` and the two ways JavaScript
    turns a value into text. A template literal writes `null` as `"null"`.
    `join` writes it as the empty string.
  - `Multipart` lays out the multipart/form-data body of a log with an
    attachment, as in RFC 7578, with delimiter lines as in section 5.1.1 of RFC 2046.

The transport is an input: each task takes the `Reply` the server would give
(`Success(remoteId)` or `Failure(error)`). The current time, the multipart
boundary, the JSON text of the log entry and the decoded attachment are
parameters.

The model runs the client with its default queue concurrency of 1. Queued
tasks run one at a time in queue order, and each task runs as one step. The
model also assumes that no synchronous call creates a record while a task
sleeps between two polls (the source allows it; see "Left out"). Under that
assumption a wait either succeeds on the first evaluation or spends its
whole budget of 301 evaluations (`attempt` counts down from 300 to 0).

Where the code and its documentation or tests disagree, the model follows the code:

- `getNewItemObj` creates records with `active: true`, so a just-created
  record blocks its dependants until its own start task settles. A test
  expects `active: false`.
- When `startTestItem` gets no parent, its first wait is on the launch. A
  missing launch is therefore reported as `Item "<id>" not found`, not as
  `Launch "<id>" not found`. The later "parent not found" check cannot fail:
  the wait has already checked the same record.
- `saveLog` links the log record under its item twice: once when the record
  is created and again when its task runs (`Client.LogLinkedTwice`).
- `removeAllChildren` deletes the child records from the dictionary; it does
  not merely detach them.
- `finishTestItem` on an unknown id throws a `TypeError` synchronously, while
  it sets `.promise` on `undefined`. It does not return a rejected promise.
  The message text is the one older Node versions give.
- `saveLog` for an unknown item throws from `addItem` after the log record
  has been stored. It does not reject.
- `updateLaunch` and `finishLaunch` on an unknown launch fail in
  `waitForItemCompleted`, so the message is `Item "<id>" not found`. Their
  tests expect `Launch "<id>" not found`.

## Model

| member | source | states |
|---|---|---|
| Base.Assign | lib/report-portal-client.js:197-203 | `Object.assign(defaults, request)`: the result has exactly the keys of both, and every key of the request keeps the request's value |
| Helpers.FormatName | lib/helpers.js:30-37 | counted in UTF-16 code units: the result is 3 to 256 units long; a shorter name is kept as a prefix and padded with '.' to exactly 3; a name of 3 to 256 units is unchanged; a longer one becomes its last 256 units |
| Helpers.FormatNameIdempotent | lib/helpers.js:30-37 | formatting a formatted name changes nothing |
| Helpers.Utf16 | lib/helpers.js:31 | a string of n characters is n to 2n code units long |
| Helpers.AstralCharPadsOnce | lib/helpers.js:30-37 | a name of one character outside the Basic Multilingual Plane is two code units long and gets a single '.' |
| Helpers.WaitForCondition | lib/helpers.js:8-23 | at most attempt+1 evaluations; on success it resolves with `false` right after the first true evaluation, all earlier ones being false; on failure every evaluation in the budget was false and the error is 'Failed to wait for condition to be fullfiled'; a negative budget fails with no evaluation |
| Helpers.WaitFrom | lib/helpers.js:8-23 | the recursion of the wait from its k-th evaluation on: the same promises as WaitForCondition, shifted by k |
| Helpers.WaitSucceedsIffSomeEvaluationHolds | lib/helpers.js:8-23 | the wait resolves exactly when one of the first attempt+1 evaluations is true |
| Helpers.WaitOnSteadyCondition | lib/helpers.js:8-23 | on a predicate whose answer never changes, the wait resolves after one evaluation when it holds, and otherwise fails after attempt+1 evaluations |
| Helpers.SteadyWait | lib/helpers.js:8-23 | the polling loop on a steady predicate resolves (with `false`, after one evaluation) exactly when the predicate holds and the budget is not negative, and otherwise fails with the wait error after the whole budget |
| Helpers.SteadyWaitAgrees | lib/helpers.js:8-23 | SteadyWait gives the same outcome and evaluation count as WaitForCondition on every predicate that always answers the same |
| Urls.JoinPath | lib/report-portal-client.js:205 | `join('/')` of the path segments; SplitJoin is its inverse on segments without '/' |
| Urls.Text | lib/report-portal-client.js:437 | the template-literal form of a value: a string is itself, null is "null", a boolean "true"/"false", a number its decimal digits with '-' when negative, an object "[object Object]"; only the empty string renders empty |
| Urls.SplitJoin | lib/report-portal-client.js:205 | splitting a `join('/')` path on '/' gives back its segments when none contains '/', so each id put into a URL stays one path segment |
| Urls.JoinText | lib/report-portal-client.js:684 | `join` renders a value as the empty string exactly when it is null or the empty string, and otherwise as its `String()` form |
| Urls.TextNoSlash | lib/report-portal-client.js:437 | a null, boolean, number or object realId adds no '/' to a URL |
| FlatTree.Linked | lib/flatTree.js:80-87 | linking appends the child id at the end of the parent's list, keeps duplicates, and changes no other record or key |
| FlatTree.Pruned | lib/flatTree.js:51-57 | after pruning, no listed child is stored, the item's list is empty, and every other record (grandchildren included) is unchanged; no key is added |
| FlatTree.LookupAll | lib/flatTree.js:38-49 | one entry per child id, in list order, each the stored record or undefined |
| FlatTree.LookupAllAppend | lib/flatTree.js:38-49 | a child linked last is returned last |
| FlatTree.LinkTwiceKeepsBoth | lib/flatTree.js:29-34 | linking the same child twice leaves two entries |
| FlatTree.FreshIdExists | lib/flatTree.js:68-72 | a fresh id outside any finite set of used ids always exists |
| FlatTree.Tree.constructor | lib/flatTree.js:4-6 | a new tree is empty |
| FlatTree.Tree.GetItem | lib/flatTree.js:8-14 | a non-string id is refused with 'Id should be a string value'; otherwise the result is the stored record, or undefined exactly when the id is not stored; nothing changes |
| FlatTree.Tree.GetChildren | lib/flatTree.js:38-49 | the child records in insertion order; empty for a missing or childless item |
| FlatTree.Tree.AddChild | lib/flatTree.js:16-36 | undefined and non-object items are refused first; an item that is not stored is refused; a stored item is appended to a known parent's list; an unknown parent is refused; every refusal leaves the tree unchanged, and no id is allocated |
| FlatTree.Tree.AddItem | lib/flatTree.js:59-88 | undefined and non-object items are refused with no change; a stored item keeps its id and record and is only linked; any other item is stored under a fresh non-empty id with an empty child list; with an unknown parent the fresh record stays stored and the call fails with 'There is no such parent element with id …' |
| FlatTree.Tree.RemoveAllChildren | lib/flatTree.js:51-57 | the new dictionary is exactly Pruned of the old one; an unknown id changes nothing |
| Multipart.BuildMultiPartStream | lib/report-portal-client.js:660-679 | the body is the four buffers concatenated; its length is the attachment's offset plus the attachment plus the close delimiter line |
| Multipart.JsonHeadLayout | lib/report-portal-client.js:662-669 | the body opens with `--boundary` CRLF, then the JSON part's Content-Disposition and Content-Type header lines, which end with three CRLFs right before the JSON text |
| Multipart.JsonTextLayout | lib/report-portal-client.js:667-673 | the JSON text appears unchanged where the headers end, followed by CRLF and the file part's delimiter line |
| Multipart.FilePartLayout | lib/report-portal-client.js:671-674 | the file part's delimiter and headers, with the file name and type, sit between the JSON part and the attachment, ending with a blank line |
| Multipart.ContentLayout | lib/report-portal-client.js:675-678 | the attachment bytes appear unchanged, followed only by CRLF `--boundary--` CRLF; the length is the sum of the parts |
| Client.NewItem | lib/report-portal-client.js:69-78 | getNewItemObj: a record with null realId, no children, not sent and active; read through CreateTempItem and PendingParentBlocksChild |
| Client.IsActive | lib/report-portal-client.js:102-109 | the record is stored and active; a missing record is not active; read through WaitForItemCompleted's contract |
| Client.IsActiveChildren | lib/report-portal-client.js:89-100 | false for a missing record, otherwise whether some looked-up child is active; its meaning is IsActiveChildrenMeans |
| Client.ActiveCount | lib/report-portal-client.js:95-99 | the count of active records is positive exactly when some present record is active |
| Client.IsActiveChildrenMeans | lib/report-portal-client.js:89-100 | isActiveChildren is false for a missing id and otherwise true exactly when some listed, stored child is active |
| Client.WaitForItemCompleted | lib/report-portal-client.js:123-133 | fails with 'Item "<id>" not found' for a missing record, fails with the wait error for an active one, and succeeds exactly for a stored idle record |
| Client.WaitForItemChildrenCompleted | lib/report-portal-client.js:111-121 | fails with 'Item "<id>" not found' for a missing record, fails with the wait error while a child is active, and succeeds otherwise |
| Client.StartLaunchSpec | lib/report-portal-client.js:178-226 | with a truthy `id` in the request: realId is that id, no call, resolves `{id}`; otherwise a create call to `project/launch` with name (or 'Test launch name') and start time under the request; success stores the server id, failure rejects and keeps realId; the launch ends idle; no other record changes |
| Client.UpdateLaunchSpec | lib/report-portal-client.js:334-376 | missing launch, active launch and missing realId are rejected in that order with no call; a missing realId leaves the launch active; otherwise an update call to `project/launch/<realId>/update` with the data, and the tree is as before |
| Client.FinishLaunchSpec | lib/report-portal-client.js:239-286 | the call is made exactly when the launch is stored, idle, has no active child and has a realId; each failure is rejected with no call; the finish call goes to `project/launch/<realId>/finish` with end_time and status under the request; finishSend is set only on success; no record is removed |
| Client.StartTestItemSpec | lib/report-portal-client.js:399-458 | it waits on the parent, or on the launch without one, then rejects a missing launch and a finished launch in that order, each with no call; the call is made exactly when the wait target is idle and the launch is stored and not finished; no record is added or removed |
| Client.StartTestItemCreates | lib/report-portal-client.js:405-454 | on the call path: the create call goes to `project/item` (plus `/<parent realId>` with a parent) with launch_id set to the launch's realId; the parent's (or launch's) record changes only by the item appended to its children; the item's record takes the request's `type`, ends idle, holds the server id on success and its old realId on failure, and keeps its finishSend and children; no other record changes; failure rejects |
| Client.ItemCreated | lib/report-portal-client.js:440-454 | the create call is made; the target's record changes only by the item appended to its children; the item's record changes only in ending idle and holding the server id on success (its old realId on failure); no other record changes; the settlement follows the reply |
| Client.FinishTestItemPromiseStartSpec | lib/report-portal-client.js:683-699 | the update call goes to `project/item/<realId>`, with an empty segment for a null realId; on success the promise resolves with undefined and the item's children are deleted and its list emptied; on failure it rejects and nothing is removed |
| Client.FinishTestItemSpec | lib/report-portal-client.js:486-515 | a record deleted since the call was made fails the first wait with 'Item "<id>" not found' and no call; an active item is rejected with no call and no change; otherwise the item is claimed (active, finishSend) before the children wait, which rejects with no call while a child is active; the finish call carries end_time and status 'PASSED' under the request, and children are pruned only after it succeeds |
| Client.SendLogData | lib/report-portal-client.js:566-571 | the log entry has time, message and level, defaulting to now, "" and ""; every caller field wins |
| Client.LogCall | lib/report-portal-client.js:591-651 | a create call to `project/log` whose entry carries `item_id`; without a file a JSON body, with a file a multipart body whose entry names the file; the caller's other fields are kept, and the entry has no key beyond the caller's, `item_id` and (with a file) `file` |
| Client.SaveLogTaskSpec | lib/report-portal-client.js:530-557 | it waits on the item (missing or active: rejected, no call); otherwise the log call is made with the item's realId, the item's record changes only by the log appended to its children again, and the log's record changes only in ending idle and in being marked sent on success and after a failed upload with a file (its realId and children are kept); no other record changes; the task never rejects after the wait |
| Client.Apply | lib/report-portal-client.js:399-402 | one step of a run: the record creation of startLaunch/startTestItem (lines 399-402) or of saveLog (lines 523-526), or one queued task by its spec function |
| Client.Run | lib/report-portal-client.js:10-22 | the steps of a run applied in order, as the queue runs its tasks one at a time |
| Client.ApplyKeepsFinishSend | lib/report-portal-client.js:265-270 | no step clears finishSend, and only a creation adds a record, under the id it names |
| Client.StartTestItemKeepsFinishSend | lib/report-portal-client.js:399-458 | startTestItem never clears finishSend |
| Client.FinishTestItemKeepsFinishSend | lib/report-portal-client.js:499-521 | finishTestItem never clears finishSend on the records it keeps |
| Client.SaveLogTaskKeepsFinishSend | lib/report-portal-client.js:530-557 | the log task never clears finishSend |
| Client.RunAddsOnlyCreated | lib/flatTree.js:68-78 | a record whose id no step creates never appears in a run |
| Client.RunKeepsFinishSend | lib/report-portal-client.js:265-270 | a finished launch stays finished through any run of creations and tasks, for as long as its record is kept, its id not being handed out again |
| Client.ClosedLaunchAcceptsNoItem | lib/report-portal-client.js:418-421 | after finishLaunch has succeeded, whatever records were created and whatever tasks ran since, starting any item under that launch (one created after the finish included) is rejected with no call |
| Client.LogLinkedTwice | lib/report-portal-client.js:523-536 | after saveLog's creation and its task, the log id appears twice at the end of the item's children |
| Client.PendingParentBlocksChild | lib/report-portal-client.js:69-78 | a just-created parent is active, so an item started under it before the parent's own start settles fails its wait with no call; on the one-at-a-time queue the parent's start always runs first, so this arises only with concurrent tasks, which are left out |
| Client.PendingLogBlocksFinish | lib/report-portal-client.js:499-510 | an item whose log task has not run yet cannot be finished: the finish claims it and marks it sent, then fails the children wait with no call |
| Client.RPClient.constructor | lib/report-portal-client.js:41-67 | a new client owns an empty tree |
| Client.RPClient.CreateTempItem | lib/report-portal-client.js:400-402 | stores a new active record with null realId and no children under a fresh non-empty id, and changes nothing else |
| Client.RPClient.StartLaunch | lib/report-portal-client.js:178-226 | the settlement, call and new tree are exactly StartLaunchSpec of the old tree |
| Client.RPClient.UpdateLaunch | lib/report-portal-client.js:334-376 | the settlement, call and new tree are exactly UpdateLaunchSpec of the old tree |
| Client.RPClient.FinishLaunch | lib/report-portal-client.js:239-286 | the settlement, call and new tree are exactly FinishLaunchSpec of the old tree |
| Client.RPClient.StartTestItem | lib/report-portal-client.js:399-458 | the settlement, call and new tree are exactly StartTestItemSpec of the old tree |
| Client.RPClient.CreateItem | lib/report-portal-client.js:440-454 | the settlement, call and new tree are exactly ItemCreated of the old tree |
| Client.PrunedChildFinishRejects | lib/report-portal-client.js:486-489 | once a parent's finish has succeeded, the finish of a child listed under it (queued earlier) fails with 'Item "<child>" not found' and makes no call |
| Client.RPClient.FinishTestItem | lib/report-portal-client.js:484-486 | the synchronous lookup: it fails with the TypeError message exactly when the id is not stored, and changes nothing |
| Client.RPClient.FinishTestItemTask | lib/report-portal-client.js:486-515 | the settlement, call and new tree are exactly FinishTestItemSpec of the old tree |
| Client.RPClient.FinishTestItemPromiseStart | lib/report-portal-client.js:683-699 | the settlement, call and new tree are exactly FinishTestItemPromiseStartSpec of the old tree, using the tree's in-place prune |
| Client.RPClient.SaveLog | lib/report-portal-client.js:523-526 | the log record is stored under a fresh id and linked under a known item; with no item it is stored unlinked; with an unknown item it is stored and the call fails |
| Client.RPClient.SendLog | lib/report-portal-client.js:566-577 | the entry is SendLogData of the request; a fresh log record is stored, linked under a known item and unlinked otherwise, and no other record changes; the call fails exactly for an unknown item |
| Client.RPClient.SaveLogTask | lib/report-portal-client.js:530-557 | the settlement, call and new tree are exactly SaveLogTaskSpec of the old tree |

## Left out

- HTTP transport (`./rest`), `checkConnect`, authorization headers and `getServerResult`: only the outcome of a call and the returned id are modelled, as the `Reply` input.
- The promise queue, `schedule` and concurrency above 1: the model runs tasks one at a time, each as one step, which is the client's default configuration; `isQueueEmpty` is not modelled.
- Synchronous calls during a wait: `waitForCondition` sleeps before every evaluation, and during that sleep the record creation of `startLaunch`, `startTestItem` or `saveLog` can run and change what the wait sees (a log saved for an item during the first 100 ms of its `finishTestItem` makes the children wait time out and reject). The task models assume no such call runs while a task polls, so each wait sees the tree as the task found it; `Run` places creations only between tasks.
- Ids that are not strings: the model's ids are strings, and "" stands for an absent parent, as the source's truthiness tests treat it. An `undefined` id that reaches a lookup (a `saveLog` task with no item, a `startTestItem` with neither a launch nor a parent) makes `getItem` throw 'Id should be a string value' inside the promise provider, and the promise `schedule` returns never settles; the model instead rejects with `Item "" not found`, which is what the source does for the empty string. A `startTestItem` with a parent but an `undefined` launch passes the parent wait and then throws the same error from `getItem(launchTempId)` inside the `.then` callback, so its promise rejects with 'Id should be a string value'; the model rejects with `Launch "" not found`.
- FlatTree.Tree.AddItem: the fresh id is also taken to differ from the parent id, which `uniqid` does not promise; a fresh id equal to an unknown parent id would make the item its own parent.
- Client.RunKeepsFinishSend: the run must not create the launch's id again; `uniqid` never repeats an id in practice, and the model does not track ids handed out earlier.
- Client.ClosedLaunchAcceptsNoItem: for the same reason it requires that the run does not create the launch's id again.
- `getPromiseFinishAllItems`, which delays `finishLaunch` until the queue drains or a timeout fires: timer-driven, so `FinishLaunch` starts where the queued task starts.
- `sleep`, `helpers.now`, the random multipart boundary and `uniqid`: time and boundary are parameters, and a fresh id is any unused non-empty id.
- `JSON.stringify`, base64 decoding and UTF-8 encoding: the JSON text, the attachment bytes and the bytes of the boundary, file name and media type are inputs to `BuildMultiPartStream`.
- Logging (`loglevel`, the `debug` flag) and the deprecated `cleanMap`, which reads a map the constructor never creates.
- Aliasing of records: the source shares one mutable object between the tree and the closures of a task; the model keeps records as values in the map. A start or log task whose own record has been pruned from the tree before it runs is therefore not modelled: those task methods require the record to be stored, and `Client.Apply` leaves the tree unchanged for such a task. (The finish task needs no such requirement: its first wait looks the record up and rejects when it is gone.)
- Client.IsActiveChildren: a child id whose record has been deleted counts as not active; the source would throw a `TypeError` reading `active` of `undefined` inside the poll.
- Numbers other than integers in JSON values, and the `type` field beyond being copied into the record's `kind`.

=== FILE: base.dfy ===
/** Values shared by the whole model: optional values, results, the JSON-like
    values the client puts into request bodies, and bytes. */
module Base {

  datatype Option<+T> = None | Some(value: T)

  datatype Result<+T, +E> = Ok(value: T) | Err(error: E)

  type byte = x: int | 0 <= x < 256

  /** A value of a request body or of a record field. Numbers are integers
      in this model; `JObj` is a plain object with its own keys. */
  datatype Json =
    | JNull
    | JBool(b: bool)
    | JNum(n: int)
    | JStr(s: string)
    | JObj(fields: map<string, Json>)

  /** JavaScript truthiness: what `if (v)` and `!v` test. */
  predicate Truthy(v: Json)
  {
    match v
    case JNull => false
    case JBool(b) => b
    case JNum(n) => n != 0
    case JStr(s) => s != ""
    case JObj(_) => true
  }

  /** `Object.assign({}, defaults, request)` on plain objects: every key of
      `request` overrides the default of the same name. */
  function Assign(defaults: map<string, Json>, request: map<string, Json>): (r: map<string, Json>)
    ensures r.Keys == defaults.Keys + request.Keys
    ensures forall k :: k in request ==> r[k] == request[k]
    ensures forall k :: k in defaults && k !in request ==> r[k] == defaults[k]
  {
    defaults + request
  }
}

=== FILE: client.dfy ===
/** The item lifecycle controller of lib/report-portal-client.js.

    The model is the client with its default queue concurrency of 1: queued
    tasks run one at a time, in order, and each task body runs as one step.
    It further assumes that no synchronous call (the record creation of
    startLaunch, startTestItem and saveLog) runs while a task sleeps between
    two polls, which the source allows. Under that assumption every wait of
    a task polls a predicate whose answer does not change (Helpers.SteadyWait,
    which Helpers.SteadyWaitAgrees ties to the general polling loop): it
    resolves when the record is idle now and otherwise fails once the budget
    of 301 evaluations (`attempt` counting down from 300 to 0) is spent.

    Each operation is a spec function `...Spec` from the old dictionary (and
    the transport's reply) to a `Step`: the settlement of the returned
    promise, the remote call made (if any) and the new dictionary. The
    methods of `RPClient` change the owned tree step by step and are proved
    to produce exactly that step. */
module Client {
  import opened Base
  import opened FlatTree
  import opened Urls
  import Helpers

  /** What the transport did with a remote call: the created or updated
      record's id, or the reported error. */
  datatype Reply = Success(remoteId: string) | Failure(error: string)

  /** `restClient.create` (POST) or `restClient.update` (PUT). */
  datatype Verb = Create | Update

  /** An attachment: file name, media type and its decoded bytes. */
  datatype File = File(name: string, mime: string, content: seq<byte>)

  /** A request body: a JSON object, or a multipart body holding the entry
      `data` and one file (module Multipart gives its byte layout). */
  datatype Body = Fields(data: map<string, Json>) | MultipartBody(data: map<string, Json>, file: File)

  datatype Call = Call(verb: Verb, url: string, body: Body)

  /** What a promise resolves with: undefined, or an object whose `id` is given. */
  datatype Answer = Undefined | Response(id: Json)

  /** How the promise of a queued task ends. */
  datatype Settlement = Resolved(answer: Answer) | Rejected(reason: string)

  datatype Step = Step(settlement: Settlement, call: Option<Call>, items: Items)

  /** A log entry to send: its fields after the defaults, and an optional file. */
  datatype LogRequest = LogRequest(data: map<string, Json>, file: Option<File>)

  const WaitAttempts: int := 300
  const DefaultLaunchName: string := "Test launch name"
  const NoRealId: string := "There is no realId fetched for launch"
  const NoPromiseHolder: string := "Cannot set property 'promise' of undefined"

  function ItemNotFound(id: string): string
  {
    "Item \"" + id + "\" not found"
  }

  function LaunchNotFound(id: string): string
  {
    "Launch \"" + id + "\" not found"
  }

  function LaunchFinished(id: string): string
  {
    "Launch \"" + id + "\" is already finished, you can not add an item to it"
  }

  /** getNewItemObj: a record scheduled for adding, hence active. */
  function NewItem(): Item
  {
    Item("", JNull, [], false, true, None)
  }

  function WithActive(m: Items, id: string, active: bool): Items
    requires id in m
  {
    m[id := m[id].(active := active)]
  }

  /** No record that had `finishSend` set has lost it. */
  ghost predicate FinishSendKept(m: Items, m': Items)
  {
    forall k :: k in m && k in m' && m[k].finishSend ==> m'[k].finishSend
  }

  predicate IsActive(m: Items, id: string)
  {
    id in m && m[id].active
  }

  /** `records.filter(child => child.active).length`; a missing record
      counts as inactive. */
  function ActiveCount(records: seq<Option<Item>>): (n: nat)
    ensures 0 < n <==> exists i :: 0 <= i < |records| && records[i].Some? && records[i].value.active
  {
    if records == [] then 0
    else (if records[0].Some? && records[0].value.active then 1 else 0) + ActiveCount(records[1..])
  }

  /** Whether some immediate child of `id` is active; false for a missing id. */
  predicate IsActiveChildren(m: Items, id: string)
  {
    id in m && 0 < ActiveCount(LookupAll(m, m[id].children))
  }

  /** The children wait looks at exactly the stored records listed under `id`. */
  lemma IsActiveChildrenMeans(m: Items, id: string)
    ensures IsActiveChildren(m, id) <==> id in m && exists c :: c in m[id].children && c in m && m[c].active
  {
    if id in m {
      var records := LookupAll(m, m[id].children);
      if IsActiveChildren(m, id) {
        var i :| 0 <= i < |records| && records[i].Some? && records[i].value.active;
        assert m[id].children[i] in m[id].children;
      } else {
        forall c | c in m[id].children && c in m
          ensures !m[c].active
        {
          var i :| 0 <= i < |m[id].children| && m[id].children[i] == c;
          assert records[i] == Some(m[c]);
        }
      }
    }
  }

  /** waitForItemCompleted: fails at once for a missing record, otherwise
      polls until the record is idle. */
  function WaitForItemCompleted(m: Items, id: string): (r: Result<(), string>)
    ensures r.Ok? <==> id in m && !m[id].active
    ensures id !in m ==> r == Err(ItemNotFound(id))
    ensures id in m && m[id].active ==> r == Err(Helpers.WaitFailure)
  {
    if id !in m then Err(ItemNotFound(id))
    else
      var idle := !IsActive(m, id);
      var w := Helpers.SteadyWait(idle, WaitAttempts);
      if w.outcome.Ok? then Ok(()) else Err(w.outcome.error)
  }

  /** waitForItemChildrenCompleted: fails at once for a missing record,
      otherwise polls until no immediate child is active. */
  function WaitForItemChildrenCompleted(m: Items, id: string): (r: Result<(), string>)
    ensures r.Ok? <==> id in m && !IsActiveChildren(m, id)
    ensures id !in m ==> r == Err(ItemNotFound(id))
    ensures IsActiveChildren(m, id) ==> r == Err(Helpers.WaitFailure)
  {
    if id !in m then Err(ItemNotFound(id))
    else
      var idle := !IsActiveChildren(m, id);
      var w := Helpers.SteadyWait(idle, WaitAttempts);
      if w.outcome.Ok? then Ok(()) else Err(w.outcome.error)
  }

  // ---------------------------------------------------------------- launch

  /** `launchDataRQ.id` is set (truthy): the client attaches to that launch. */
  predicate HasExplicitId(rq: map<string, Json>)
  {
    "id" in rq && Truthy(rq["id"])
  }

  function LaunchDefaults(launchName: string, now: int): map<string, Json>
  {
    map["name" := JStr(if launchName != "" then launchName else DefaultLaunchName),
        "start_time" := JNum(now)]
  }

  /** The queued part of startLaunch. */
  function StartLaunchSpec(m: Items, project: string, launchName: string, tempId: string,
                           rq: map<string, Json>, now: int, reply: Reply): (st: Step)
    requires tempId in m
    ensures st.items.Keys == m.Keys
    ensures forall k :: k in m && k != tempId ==> st.items[k] == m[k]
    ensures st.items[tempId] == m[tempId].(active := false, realId := st.items[tempId].realId)
    ensures HasExplicitId(rq) ==>
              st.call.None? && st.settlement == Resolved(Response(rq["id"])) &&
              st.items[tempId].realId == rq["id"]
    ensures !HasExplicitId(rq) ==>
              st.call == Some(Call(Create, JoinPath([project, "launch"]),
                                   Fields(Assign(LaunchDefaults(launchName, now), rq))))
    ensures !HasExplicitId(rq) && reply.Success? ==>
              st.settlement == Resolved(Response(JStr(reply.remoteId))) &&
              st.items[tempId].realId == JStr(reply.remoteId)
    ensures !HasExplicitId(rq) && reply.Failure? ==>
              st.settlement == Rejected(reply.error) && st.items[tempId].realId == m[tempId].realId
  {
    var launch := m[tempId].(active := true);
    if HasExplicitId(rq) then
      Step(Resolved(Response(rq["id"])), None, m[tempId := launch.(realId := rq["id"], active := false)])
    else
      var call := Call(Create, JoinPath([project, "launch"]), Fields(Assign(LaunchDefaults(launchName, now), rq)));
      match reply
      case Success(rid) =>
        Step(Resolved(Response(JStr(rid))), Some(call), m[tempId := launch.(realId := JStr(rid), active := false)])
      case Failure(e) =>
        Step(Rejected(e), Some(call), m[tempId := launch.(active := false)])
  }

  /** The queued part of updateLaunch. */
  function UpdateLaunchSpec(m: Items, project: string, id: string,
                            data: map<string, Json>, reply: Reply): (st: Step)
    ensures st.items.Keys == m.Keys
    ensures st.call.None? ==> st.settlement.Rejected?
    ensures st.call.Some? <==> id in m && !m[id].active && Truthy(m[id].realId)
    ensures id !in m ==> st == Step(Rejected(ItemNotFound(id)), None, m)
    ensures id in m && m[id].active ==> st == Step(Rejected(Helpers.WaitFailure), None, m)
    ensures id in m && !m[id].active && !Truthy(m[id].realId) ==>
              st == Step(Rejected(NoRealId), None, m[id := m[id].(active := true)])
    ensures st.call.Some? ==>
              st.items == m &&
              st.call.value == Call(Update, JoinPath([project, "launch", Text(m[id].realId), "update"]), Fields(data)) &&
              st.settlement == (match reply
                                case Success(rid) => Resolved(Response(JStr(rid)))
                                case Failure(e) => Rejected(e))
  {
    match WaitForItemCompleted(m, id)
    case Err(e) => Step(Rejected(e), None, m)
    case Ok(_) =>
      var m1 := WithActive(m, id, true);
      if !Truthy(m1[id].realId) then Step(Rejected(NoRealId), None, m1)
      else
        var call := Call(Update, JoinPath([project, "launch", JoinText(m1[id].realId), "update"]), Fields(data));
        match reply
        case Success(rid) => Step(Resolved(Response(JStr(rid))), Some(call), WithActive(m1, id, false))
        case Failure(e) => Step(Rejected(e), Some(call), WithActive(m1, id, false))
  }

  function FinishLaunchDefaults(now: int): map<string, Json>
  {
    map["end_time" := JNum(now), "status" := JStr("")]
  }

  /** The queued part of finishLaunch, after the queue has drained. */
  function FinishLaunchSpec(m: Items, project: string, id: string,
                            rq: map<string, Json>, now: int, reply: Reply): (st: Step)
    ensures st.items.Keys == m.Keys
    ensures st.call.None? ==> st.settlement.Rejected?
    ensures st.call.Some? <==>
              id in m && !m[id].active && !IsActiveChildren(m, id) && Truthy(m[id].realId)
    ensures id !in m ==> st == Step(Rejected(ItemNotFound(id)), None, m)
    ensures id in m && (m[id].active || IsActiveChildren(m, id)) ==>
              st == Step(Rejected(Helpers.WaitFailure), None, m)
    ensures id in m && !m[id].active && !IsActiveChildren(m, id) && !Truthy(m[id].realId) ==>
              st == Step(Rejected(NoRealId), None, m[id := m[id].(active := true)])
    ensures st.call.Some? ==>
              st.call.value == Call(Update, JoinPath([project, "launch", Text(m[id].realId), "finish"]),
                                    Fields(Assign(FinishLaunchDefaults(now), rq))) &&
              (reply.Success? ==>
                 st.settlement == Resolved(Response(JStr(reply.remoteId))) &&
                 st.items == m[id := m[id].(finishSend := true)]) &&
              (reply.Failure? ==> st.settlement == Rejected(reply.error) && st.items == m)
  {
    match WaitForItemCompleted(m, id)
    case Err(e) => Step(Rejected(e), None, m)
    case Ok(_) =>
      match WaitForItemChildrenCompleted(m, id)
      case Err(e) => Step(Rejected(e), None, m)
      case Ok(_) =>
        var m1 := WithActive(m, id, true);
        if !Truthy(m1[id].realId) then Step(Rejected(NoRealId), None, m1)
        else
          var data := Assign(FinishLaunchDefaults(now), rq);
          var call := Call(Update, JoinPath([project, "launch", JoinText(m1[id].realId), "finish"]), Fields(data));
          match reply
          case Success(rid) =>
            Step(Resolved(Response(JStr(rid))), Some(call), m1[id := m1[id].(finishSend := true, active := false)])
          case Failure(e) =>
            Step(Rejected(e), Some(call), WithActive(m1, id, false))
  }

  // ------------------------------------------------------------ test items

  function TypeOf(rq: map<string, Json>): Option<Json>
  {
    if "type" in rq then Some(rq["type"]) else None
  }

  /** Where startTestItem waits and links: the parent, or the launch when
      no parent is given. */
  function LinkTarget(launchId: string, parentId: string): string
  {
    if parentId != "" then parentId else launchId
  }

  /** The path of the create call: `project/item`, plus `/<parent realId>`
      written by a template literal when a parent is given. */
  function ItemUrl(m: Items, project: string, parentId: string): string
    requires parentId != "" ==> parentId in m
  {
    JoinPath([project, "item"]) + (if parentId != "" then "/" + Text(m[parentId].realId) else "")
  }

  /** The queued part of startTestItem for the record `tempId`. */
  function StartTestItemSpec(m: Items, project: string, tempId: string, rq: map<string, Json>, now: int,
                             launchId: string, parentId: string, reply: Reply): (st: Step)
    requires tempId in m
    ensures st.items.Keys == m.Keys
    ensures st.call.None? ==> st.settlement.Rejected?
    ensures var target := LinkTarget(launchId, parentId);
            var started := m[tempId := m[tempId].(active := true, kind := TypeOf(rq))];
            && (target !in m ==> st == Step(Rejected(ItemNotFound(target)), None, m))
            && (target in m && m[target].active ==> st == Step(Rejected(Helpers.WaitFailure), None, m))
            && (target in m && !m[target].active && launchId !in m ==>
                  st == Step(Rejected(LaunchNotFound(launchId)), None, started))
            && (target in m && !m[target].active && launchId in m && m[launchId].finishSend ==>
                  st == Step(Rejected(LaunchFinished(launchId)), None, started))
            && (st.call.Some? <==>
                  target in m && !m[target].active && launchId in m && !m[launchId].finishSend)
  {
    var target := LinkTarget(launchId, parentId);
    match WaitForItemCompleted(m, target)
    case Err(e) => Step(Rejected(e), None, m)
    case Ok(_) =>
      var m1 := m[tempId := m[tempId].(active := true, kind := TypeOf(rq))];
      if launchId !in m1 then Step(Rejected(LaunchNotFound(launchId)), None, m1)
      else if m1[launchId].finishSend then Step(Rejected(LaunchFinished(launchId)), None, m1)
      else
        var data := Assign(map["start_time" := JNum(now)], rq)["launch_id" := m1[launchId].realId];
        ItemCreated(m1, tempId, target, Call(Create, ItemUrl(m1, project, parentId), Fields(data)), reply)
  }

  /** The server id the record holds after its start settles: the new one
      on success, the old one on failure. */
  function SettledId(before: Json, reply: Reply): Json
  {
    if reply.Success? then JStr(reply.remoteId) else before
  }

  /** The end of startTestItem: the record is linked under `target`, the
      create call is made, and the record ends idle, holding the server's id
      when the call succeeded. */
  function ItemCreated(m: Items, tempId: string, target: string, call: Call, reply: Reply): (st: Step)
    requires tempId in m && target in m
    ensures st.call == Some(call)
    ensures st.items.Keys == m.Keys
    ensures forall k :: k in m && k != tempId && k != target ==> st.items[k] == m[k]
    ensures target != tempId ==> st.items[target] == m[target].(children := m[target].children + [tempId])
    ensures st.items[tempId] ==
            m[tempId].(children := m[tempId].children + (if target == tempId then [tempId] else []),
                       active := false, realId := SettledId(m[tempId].realId, reply))
    ensures st.settlement == (match reply
                              case Success(rid) => Resolved(Response(JStr(rid)))
                              case Failure(e) => Rejected(e))
  {
    var linked := Linked(m, target, tempId);
    match reply
    case Success(rid) =>
      Step(Resolved(Response(JStr(rid))), Some(call),
           linked[tempId := linked[tempId].(active := false, realId := JStr(rid))])
    case Failure(e) =>
      Step(Rejected(e), Some(call), WithActive(linked, tempId, false))
  }

  /** When startTestItem reaches the server: the create call carries the
      launch's realId and goes under the parent's realId; the record is
      appended to the children of its parent (or launch), takes the request's
      `type` and ends idle, with the server's id on success; no other record
      and no other field changes. */
  lemma StartTestItemCreates(m: Items, project: string, tempId: string, rq: map<string, Json>, now: int,
                             launchId: string, parentId: string, reply: Reply)
    requires tempId in m
    requires StartTestItemSpec(m, project, tempId, rq, now, launchId, parentId, reply).call.Some?
    ensures var st := StartTestItemSpec(m, project, tempId, rq, now, launchId, parentId, reply);
            var target := LinkTarget(launchId, parentId);
            && target in m && launchId in m
            && st.call.value == Call(Create, ItemUrl(m, project, parentId),
                                     Fields(Assign(map["start_time" := JNum(now)], rq)["launch_id" := m[launchId].realId]))
            && (target != tempId ==> st.items[target] == m[target].(children := m[target].children + [tempId]))
            && st.items[tempId] ==
               m[tempId].(children := m[tempId].children + (if target == tempId then [tempId] else []),
                          active := false, kind := TypeOf(rq), realId := SettledId(m[tempId].realId, reply))
            && (forall k :: k in m && k != tempId && k != target ==> st.items[k] == m[k])
            && st.settlement == (match reply
                                 case Success(rid) => Resolved(Response(JStr(rid)))
                                 case Failure(e) => Rejected(e))
  {
    var target := LinkTarget(launchId, parentId);
    var m1 := m[tempId := m[tempId].(active := true, kind := TypeOf(rq))];
    assert ItemUrl(m1, project, parentId) == ItemUrl(m, project, parentId);
  }

  function FinishItemDefaults(now: int): map<string, Json>
  {
    map["end_time" := JNum(now), "status" := JStr("PASSED")]
  }

  /** finishTestItemPromiseStart: the finish call, then, only once it has
      succeeded, the pruning of the item's children. The path is built by
      `Array.join`, so a null realId leaves an empty last segment. */
  function FinishTestItemPromiseStartSpec(m: Items, project: string, id: string,
                                          data: map<string, Json>, reply: Reply): (st: Step)
    requires id in m
    ensures st.call == Some(Call(Update, JoinPath([project, "item", JoinText(m[id].realId)]), Fields(data)))
    ensures st.settlement == (if reply.Success? then Resolved(Undefined) else Rejected(reply.error))
    ensures reply.Failure? ==> st.items == m[id := m[id].(active := false)]
    ensures reply.Success? ==>
              st.items.Keys <= m.Keys &&
              (forall c :: c in m[id].children ==> c !in st.items) &&
              (forall k :: k in m && k != id && k !in m[id].children ==> k in st.items && st.items[k] == m[k]) &&
              (id !in m[id].children ==> id in st.items && st.items[id] == m[id].(active := false, children := []))
  {
    var call := Call(Update, JoinPath([project, "item", JoinText(m[id].realId)]), Fields(data));
    // The record is made active for the call and idle again once it has
    // settled, whatever the outcome.
    var settled := WithActive(m, id, false);
    match reply
    case Success(_) => Step(Resolved(Undefined), Some(call), Pruned(settled, id))
    case Failure(e) => Step(Rejected(e), Some(call), settled)
  }

  /** The record once finishTestItem has claimed it: active and marked as
      sent. Only a launch's mark refuses new items; an item's mark is not
      read when a child is started under it. */
  function Claimed(m: Items, id: string): Items
    requires id in m
  {
    m[id := m[id].(active := true, finishSend := true)]
  }

  /** The queued part of finishTestItem. A record deleted after the call
      was made (pruned by its parent's finish) fails the first wait. */
  function FinishTestItemSpec(m: Items, project: string, id: string,
                              rq: map<string, Json>, now: int, reply: Reply): (st: Step)
    ensures id !in m ==> st == Step(Rejected(ItemNotFound(id)), None, m)
    ensures id in m && m[id].active ==> st == Step(Rejected(Helpers.WaitFailure), None, m)
    ensures id in m && !m[id].active && IsActiveChildren(Claimed(m, id), id) ==>
              st == Step(Rejected(Helpers.WaitFailure), None, Claimed(m, id))
    ensures id in m && !m[id].active && !IsActiveChildren(Claimed(m, id), id) ==>
              st.call == Some(Call(Update, JoinPath([project, "item", JoinText(m[id].realId)]),
                                   Fields(Assign(FinishItemDefaults(now), rq)))) &&
              (reply.Success? ==>
                 st.settlement == Resolved(Undefined) &&
                 st.items == Pruned(WithActive(Claimed(m, id), id, false), id)) &&
              (reply.Failure? ==>
                 st.settlement == Rejected(reply.error) && st.items == WithActive(Claimed(m, id), id, false))
  {
    match WaitForItemCompleted(m, id)
    case Err(e) => Step(Rejected(e), None, m)
    case Ok(_) =>
      var m1 := Claimed(m, id);
      match WaitForItemChildrenCompleted(m1, id)
      case Err(e) => Step(Rejected(e), None, m1)
      case Ok(_) => FinishTestItemPromiseStartSpec(m1, project, id, Assign(FinishItemDefaults(now), rq), reply)
  }

  /** A child whose finish was called before its parent's finish went
      through: the parent's finish deletes the child's record, so the
      child's queued finish fails its first wait with no call. */
  lemma PrunedChildFinishRejects(m: Items, project: string, parent: string, child: string,
                                 rq: map<string, Json>, now: int, reply: Reply,
                                 childRq: map<string, Json>, childNow: int, childReply: Reply)
    requires parent in m && !m[parent].active && !IsActiveChildren(Claimed(m, parent), parent)
    requires child in m[parent].children && reply.Success?
    ensures var after := FinishTestItemSpec(m, project, parent, rq, now, reply).items;
            FinishTestItemSpec(after, project, child, childRq, childNow, childReply) ==
            Step(Rejected(ItemNotFound(child)), None, after)
  {
    var after := FinishTestItemSpec(m, project, parent, rq, now, reply).items;
    assert child in Claimed(m, parent)[parent].children;
    assert child !in after;
  }

  // ------------------------------------------------------------------ logs

  function SendLogDefaults(now: int): map<string, Json>
  {
    map["time" := JNum(now), "message" := JStr(""), "level" := JStr("")]
  }

  /** The log entry's fields: time, message and level default to now, ""
      and "", and every field the caller gives wins. */
  function SendLogData(rq: map<string, Json>, now: int): (data: map<string, Json>)
    ensures data.Keys == rq.Keys + {"time", "message", "level"}
    ensures forall k :: k in rq ==> data[k] == rq[k]
    ensures "time" !in rq ==> data["time"] == JNum(now)
    ensures "message" !in rq ==> data["message"] == JStr("")
    ensures "level" !in rq ==> data["level"] == JStr("")
  {
    Assign(SendLogDefaults(now), rq)
  }

  /** The request function of sendLogWithoutFile / sendLogWithFile, given the
      item's realId: a POST to `project/log` with `item_id` set, as a JSON
      body or, with a file, as a multipart body whose entry names the file. */
  function LogCall(project: string, req: LogRequest, realId: Json): (c: Call)
    ensures c.verb == Create && c.url == JoinPath([project, "log"])
    ensures "item_id" in c.body.data && c.body.data["item_id"] == realId
    ensures req.file.None? <==> c.body.Fields?
    ensures req.file.Some? ==>
              c.body.file == req.file.value && "file" in c.body.data &&
              c.body.data["file"] == JObj(map["name" := JStr(req.file.value.name)])
    ensures forall k :: k in req.data && k != "item_id" && (req.file.Some? ==> k != "file") ==>
              k in c.body.data && c.body.data[k] == req.data[k]
    ensures c.body.data.Keys == req.data.Keys + {"item_id"} + (if req.file.Some? then {"file"} else {})
  {
    var data := req.data["item_id" := realId];
    match req.file
    case None => Call(Create, JoinPath([project, "log"]), Fields(data))
    case Some(f) =>
      Call(Create, JoinPath([project, "log"]),
           MultipartBody(data["file" := JObj(map["name" := JStr(f.name)])], f))
  }

  /** The queued part of saveLog for the log record `logId` under `itemId`.
      A failed request never rejects: without a file the log record is only
      made idle; with a file the request function has already turned the
      failure into an undefined response, so the record is also marked sent. */
  function SaveLogTaskSpec(m: Items, project: string, logId: string, itemId: string,
                           req: LogRequest, reply: Reply): (st: Step)
    requires logId in m
    ensures st.items.Keys == m.Keys
    ensures st.settlement.Rejected? <==> st.call.None?
    ensures st.call.Some? <==> itemId in m && !m[itemId].active
    ensures itemId !in m ==> st == Step(Rejected(ItemNotFound(itemId)), None, m)
    ensures itemId in m && m[itemId].active ==> st == Step(Rejected(Helpers.WaitFailure), None, m)
    ensures st.call.Some? ==>
              st.call.value == LogCall(project, req, m[itemId].realId) &&
              (itemId != logId ==> st.items[itemId] == m[itemId].(children := m[itemId].children + [logId])) &&
              st.items[logId] ==
                m[logId].(children := m[logId].children + (if itemId == logId then [logId] else []),
                          active := false,
                          finishSend := m[logId].finishSend || reply.Success? || req.file.Some?) &&
              (forall k :: k in m && k != logId && k != itemId ==> st.items[k] == m[k]) &&
              st.settlement == (if reply.Success? then Resolved(Response(JStr(reply.remoteId))) else Resolved(Undefined))
  {
    match WaitForItemCompleted(m, itemId)
    case Err(e) => Step(Rejected(e), None, m)
    case Ok(_) =>
      var linked := Linked(WithActive(m, logId, true), itemId, logId);
      var call := LogCall(project, req, linked[itemId].realId);
      match reply
      case Success(rid) =>
        Step(Resolved(Response(JStr(rid))), Some(call),
             linked[logId := linked[logId].(finishSend := true, active := false)])
      case Failure(_) =>
        if req.file.Some? then
          Step(Resolved(Undefined), Some(call), linked[logId := linked[logId].(finishSend := true, active := false)])
        else
          Step(Resolved(Undefined), Some(call), WithActive(linked, logId, false))
  }

  // ------------------------------------------------- runs of client calls

  /** One step of a client run: the synchronous record creation of a call,
      or one queued task with its arguments and the reply the transport
      gives it. A creation names the id the tree hands out. */
  datatype Op =
    | CreateOp(newId: string)
    | SaveLogOp(newId: string, itemId: string)
    | StartLaunchOp(tempId: string, rq: map<string, Json>, now: int, reply: Reply)
    | UpdateLaunchOp(id: string, data: map<string, Json>, reply: Reply)
    | FinishLaunchOp(id: string, rq: map<string, Json>, now: int, reply: Reply)
    | StartTestItemOp(tempId: string, rq: map<string, Json>, now: int,
                      launchId: string, parentId: string, reply: Reply)
    | FinishTestItemOp(id: string, rq: map<string, Json>, now: int, reply: Reply)
    | SaveLogTaskOp(logId: string, itemId: string, req: LogRequest, reply: Reply)

  /** Whether `op` creates the record `id`. */
  predicate Creates(op: Op, id: string)
  {
    (op.CreateOp? || op.SaveLogOp?) && op.newId == id
  }

  /** The dictionary after one step.
      - CreateOp is the record that startLaunch and startTestItem store
        before they queue their task (RPClient.CreateTempItem);
      - SaveLogOp is the record saveLog stores and links under a known item
        (RPClient.SaveLog);
      a creation whose id is not fresh is not one the tree hands out, and
      changes nothing. A start or log task whose own record is no longer
      stored is left out of the model and changes nothing. */
  function Apply(m: Items, project: string, launchName: string, op: Op): Items
  {
    match op
    case CreateOp(t) =>
      if t != "" && t !in m then m[t := NewItem().(id := t)] else m
    case SaveLogOp(t, itemId) =>
      if t != "" && t !in m && t != itemId then
        var stored := m[t := NewItem().(id := t)];
        if itemId != "" && itemId in m then Linked(stored, itemId, t) else stored
      else m
    case StartLaunchOp(t, rq, now, reply) =>
      if t in m then StartLaunchSpec(m, project, launchName, t, rq, now, reply).items else m
    case UpdateLaunchOp(id, data, reply) =>
      UpdateLaunchSpec(m, project, id, data, reply).items
    case FinishLaunchOp(id, rq, now, reply) =>
      FinishLaunchSpec(m, project, id, rq, now, reply).items
    case StartTestItemOp(t, rq, now, l, p, reply) =>
      if t in m then StartTestItemSpec(m, project, t, rq, now, l, p, reply).items else m
    case FinishTestItemOp(id, rq, now, reply) =>
      FinishTestItemSpec(m, project, id, rq, now, reply).items
    case SaveLogTaskOp(logId, itemId, req, reply) =>
      if logId in m then SaveLogTaskSpec(m, project, logId, itemId, req, reply).items else m
  }

  /** The dictionary after the steps of `ops`, in order. */
  function Run(m: Items, project: string, launchName: string, ops: seq<Op>): Items
    decreases |ops|
  {
    if ops == [] then m else Run(Apply(m, project, launchName, ops[0]), project, launchName, ops[1..])
  }

  /** No step clears `finishSend`, and only a creation adds a record. */
  lemma ApplyKeepsFinishSend(m: Items, project: string, launchName: string, op: Op)
    ensures var m' := Apply(m, project, launchName, op);
            (forall k :: k in m' && k !in m ==> Creates(op, k)) && FinishSendKept(m, m')
  {
    match op
    case CreateOp(t) =>
    case SaveLogOp(t, itemId) =>
    case StartLaunchOp(t, rq, now, reply) =>
    case UpdateLaunchOp(id, data, reply) =>
    case FinishLaunchOp(id, rq, now, reply) =>
    case StartTestItemOp(t, rq, now, l, p, reply) =>
      if t in m {
        StartTestItemKeepsFinishSend(m, project, t, rq, now, l, p, reply);
      }
    case FinishTestItemOp(id, rq, now, reply) =>
      FinishTestItemKeepsFinishSend(m, project, id, rq, now, reply);
    case SaveLogTaskOp(logId, itemId, req, reply) =>
      if logId in m {
        SaveLogTaskKeepsFinishSend(m, project, logId, itemId, req, reply);
      }
  }

  lemma StartTestItemKeepsFinishSend(m: Items, project: string, tempId: string, rq: map<string, Json>, now: int,
                                     launchId: string, parentId: string, reply: Reply)
    requires tempId in m
    ensures FinishSendKept(m, StartTestItemSpec(m, project, tempId, rq, now, launchId, parentId, reply).items)
  {
    var st := StartTestItemSpec(m, project, tempId, rq, now, launchId, parentId, reply);
    if st.call.Some? {
      StartTestItemCreates(m, project, tempId, rq, now, launchId, parentId, reply);
    }
  }

  /** Pruning deletes records but never clears a flag on the ones it keeps. */
  lemma FinishTestItemKeepsFinishSend(m: Items, project: string, id: string,
                                      rq: map<string, Json>, now: int, reply: Reply)
    ensures FinishSendKept(m, FinishTestItemSpec(m, project, id, rq, now, reply).items)
  {
    var m' := FinishTestItemSpec(m, project, id, rq, now, reply).items;
    if id in m && !m[id].active && !IsActiveChildren(Claimed(m, id), id) && reply.Success? {
      var claimed := Claimed(m, id);
      forall k | k in m && k in m' && m[k].finishSend
        ensures m'[k].finishSend
      {
        if k != id {
          assert k !in claimed[id].children;
        }
      }
    }
  }

  lemma SaveLogTaskKeepsFinishSend(m: Items, project: string, logId: string, itemId: string,
                                   req: LogRequest, reply: Reply)
    requires logId in m
    ensures FinishSendKept(m, SaveLogTaskSpec(m, project, logId, itemId, req, reply).items)
  {
  }

  /** No step of `ops` creates `id`: the tree never hands out an id twice,
      so this holds of every id it has handed out before the run. */
  predicate NeverCreated(ops: seq<Op>, id: string)
  {
    forall i :: 0 <= i < |ops| ==> !Creates(ops[i], id)
  }

  /** A record appears only through a step that creates it. */
  lemma {:induction false} RunAddsOnlyCreated(m: Items, project: string, launchName: string, ops: seq<Op>, id: string)
    requires id !in m && NeverCreated(ops, id)
    ensures id !in Run(m, project, launchName, ops)
    decreases |ops|
  {
    if ops != [] {
      ApplyKeepsFinishSend(m, project, launchName, ops[0]);
      assert !Creates(ops[0], id);
      RunAddsOnlyCreated(Apply(m, project, launchName, ops[0]), project, launchName, ops[1..], id);
    }
  }

  /** A finished launch stays finished through any run, for as long as its
      record is kept: once deleted, its id is not handed out again. */
  lemma {:induction false} RunKeepsFinishSend(m: Items, project: string, launchName: string, ops: seq<Op>, id: string)
    requires id in m && m[id].finishSend && NeverCreated(ops, id)
    ensures var m' := Run(m, project, launchName, ops);
            id in m' ==> m'[id].finishSend
    decreases |ops|
  {
    if ops != [] {
      var m1 := Apply(m, project, launchName, ops[0]);
      ApplyKeepsFinishSend(m, project, launchName, ops[0]);
      assert NeverCreated(ops[1..], id);
      if id in m1 {
        RunKeepsFinishSend(m1, project, launchName, ops[1..], id);
      } else {
        RunAddsOnlyCreated(m1, project, launchName, ops[1..], id);
      }
    }
  }

  /** Once finishLaunch has gone through, no item can be started under that
      launch: whatever was created and whatever ran in between, including
      the creation of the item itself, the start makes no remote call and is
      rejected. */
  lemma ClosedLaunchAcceptsNoItem(m: Items, project: string, launchName: string, launchId: string,
                                  rq: map<string, Json>, now: int, rid: string, ops: seq<Op>,
                                  tempId: string, itemRq: map<string, Json>, itemNow: int,
                                  parentId: string, reply: Reply)
    requires FinishLaunchSpec(m, project, launchId, rq, now, Success(rid)).call.Some?
    requires NeverCreated(ops, launchId)
    requires tempId in Run(FinishLaunchSpec(m, project, launchId, rq, now, Success(rid)).items, project, launchName, ops)
    ensures var m' := Run(FinishLaunchSpec(m, project, launchId, rq, now, Success(rid)).items, project, launchName, ops);
            var st := StartTestItemSpec(m', project, tempId, itemRq, itemNow, launchId, parentId, reply);
            st.call.None? && st.settlement.Rejected?
  {
    var closed := FinishLaunchSpec(m, project, launchId, rq, now, Success(rid)).items;
    RunKeepsFinishSend(closed, project, launchName, ops, launchId);
  }

  // ------------------------------------------- records that are still pending

  /** saveLog links its record under the item twice: once when the record
      is created and again when its task runs. */
  lemma LogLinkedTwice(m: Items, project: string, logId: string, itemId: string,
                       req: LogRequest, reply: Reply)
    requires itemId in m && !m[itemId].active && logId !in m && logId != itemId
    ensures var created := Linked(m[logId := NewItem().(id := logId)], itemId, logId);
            SaveLogTaskSpec(created, project, logId, itemId, req, reply).items[itemId].children ==
            m[itemId].children + [logId, logId]
  {
    var created := Linked(m[logId := NewItem().(id := logId)], itemId, logId);
    assert created[itemId].children == m[itemId].children + [logId];
  }

  /** A record just created for startTestItem is active, so an item started
      under it before its own start task has run fails its wait and makes no
      call. On a queue running one task at a time the parent's start task
      always runs first; this state arises only when tasks run concurrently. */
  lemma PendingParentBlocksChild(m: Items, project: string, parentId: string, tempId: string,
                                 rq: map<string, Json>, now: int, launchId: string, reply: Reply)
    requires parentId != "" && tempId in m[parentId := NewItem().(id := parentId)]
    ensures var created := m[parentId := NewItem().(id := parentId)];
            StartTestItemSpec(created, project, tempId, rq, now, launchId, parentId, reply) ==
            Step(Rejected(Helpers.WaitFailure), None, created)
  {
  }

  /** An item with a log whose task has not run yet cannot be finished: the
      finish claims the item and marks it as sent, then fails on the
      children wait without a remote call. */
  lemma PendingLogBlocksFinish(m: Items, project: string, logId: string, itemId: string,
                               rq: map<string, Json>, now: int, reply: Reply)
    requires itemId in m && !m[itemId].active && logId !in m && logId != itemId
    ensures var created := Linked(m[logId := NewItem().(id := logId)], itemId, logId);
            var st := FinishTestItemSpec(created, project, itemId, rq, now, reply);
            st.call.None? && st.settlement == Rejected(Helpers.WaitFailure) &&
            st.items[itemId].finishSend && st.items[itemId].active
  {
    var created := Linked(m[logId := NewItem().(id := logId)], itemId, logId);
    var claimed := Claimed(created, itemId);
    assert logId in claimed[itemId].children && claimed[logId].active;
    IsActiveChildrenMeans(claimed, itemId);
  }

  class RPClient {
    const tree: Tree
    const project: string
    /** The configured launch name; "" when none is configured. */
    const launchName: string

    ghost predicate Valid()
      reads this, tree
    {
      tree.Valid()
    }

    constructor (project: string, launchName: string)
      ensures Valid() && fresh(tree) && tree.items == map[]
      ensures this.project == project && this.launchName == launchName
    {
      this.project := project;
      this.launchName := launchName;
      tree := new Tree();
    }

    /** The synchronous part of startLaunch and of startTestItem: a new,
      active, unlinked record under a fresh id, returned to the caller
      before any remote call. */
    method CreateTempItem() returns (tempId: string)
      requires Valid()
      modifies tree
      ensures Valid()
      ensures tempId != "" && tempId !in old(tree.items)
      ensures tree.items == old(tree.items)[tempId := NewItem().(id := tempId)]
    {
      var _, id := tree.AddItem(Obj(NewItem()), "");
      tempId := id;
    }

    method StartLaunch(tempId: string, rq: map<string, Json>, now: int, reply: Reply)
      returns (s: Settlement, call: Option<Call>)
      requires Valid() && tempId in tree.items
      modifies tree
      ensures Valid()
      ensures Step(s, call, tree.items) ==
              StartLaunchSpec(old(tree.items), project, launchName, tempId, rq, now, reply)
    {
      // The record is active until the task settles; no other task runs
      // meanwhile, so it is written back once, idle.
      var launch := tree.items[tempId].(active := true);
      if HasExplicitId(rq) {
        launch := launch.(realId := rq["id"], active := false);
        tree.items := tree.items[tempId := launch];
        return Resolved(Response(rq["id"])), None;
      }
      var data := Assign(LaunchDefaults(launchName, now), rq);
      call := Some(Call(Create, JoinPath([project, "launch"]), Fields(data)));
      match reply {
        case Success(rid) =>
          launch := launch.(realId := JStr(rid), active := false);
          s := Resolved(Response(JStr(rid)));
        case Failure(e) =>
          launch := launch.(active := false);
          s := Rejected(e);
      }
      tree.items := tree.items[tempId := launch];
    }

    method UpdateLaunch(launchTempId: string, data: map<string, Json>, reply: Reply)
      returns (s: Settlement, call: Option<Call>)
      requires Valid()
      modifies tree
      ensures Valid()
      ensures Step(s, call, tree.items) == UpdateLaunchSpec(old(tree.items), project, launchTempId, data, reply)
    {
      var waited := WaitForItemCompleted(tree.items, launchTempId);
      if waited.Err? {
        return Rejected(waited.error), None;
      }
      var launch := tree.items[launchTempId].(active := true);
      tree.items := tree.items[launchTempId := launch];
      if !Truthy(launch.realId) {
        return Rejected(NoRealId), None;
      }
      var url := JoinPath([project, "launch", JoinText(launch.realId), "update"]);
      call := Some(Call(Update, url, Fields(data)));
      tree.items := tree.items[launchTempId := launch.(active := false)];
      match reply {
        case Success(rid) => s := Resolved(Response(JStr(rid)));
        case Failure(e) => s := Rejected(e);
      }
    }

    method FinishLaunch(launchTempId: string, rq: map<string, Json>, now: int, reply: Reply)
      returns (s: Settlement, call: Option<Call>)
      requires Valid()
      modifies tree
      ensures Valid()
      ensures Step(s, call, tree.items) == FinishLaunchSpec(old(tree.items), project, launchTempId, rq, now, reply)
    {
      var waited := WaitForItemCompleted(tree.items, launchTempId);
      if waited.Err? {
        return Rejected(waited.error), None;
      }
      waited := WaitForItemChildrenCompleted(tree.items, launchTempId);
      if waited.Err? {
        return Rejected(waited.error), None;
      }
      var launch := tree.items[launchTempId].(active := true);
      tree.items := tree.items[launchTempId := launch];
      if !Truthy(launch.realId) {
        return Rejected(NoRealId), None;
      }
      var data := Assign(FinishLaunchDefaults(now), rq);
      var url := JoinPath([project, "launch", JoinText(launch.realId), "finish"]);
      call := Some(Call(Update, url, Fields(data)));
      match reply {
        case Success(rid) =>
          tree.items := tree.items[launchTempId := launch.(finishSend := true, active := false)];
          s := Resolved(Response(JStr(rid)));
        case Failure(e) =>
          tree.items := tree.items[launchTempId := launch.(active := false)];
          s := Rejected(e);
      }
    }

    method StartTestItem(tempId: string, rq: map<string, Json>, now: int,
                         launchTempId: string, parentTempId: string, reply: Reply)
      returns (s: Settlement, call: Option<Call>)
      requires Valid() && tempId in tree.items
      modifies tree
      ensures Valid()
      ensures Step(s, call, tree.items) ==
              StartTestItemSpec(old(tree.items), project, tempId, rq, now, launchTempId, parentTempId, reply)
    {
      var parentId := LinkTarget(launchTempId, parentTempId);
      var waited := WaitForItemCompleted(tree.items, parentId);
      if waited.Err? {
        return Rejected(waited.error), None;
      }
      tree.items := tree.items[tempId := tree.items[tempId].(active := true, kind := TypeOf(rq))];
      if launchTempId !in tree.items {
        return Rejected(LaunchNotFound(launchTempId)), None;
      }
      var launch := tree.items[launchTempId];
      if launch.finishSend {
        return Rejected(LaunchFinished(launchTempId)), None;
      }
      // The source checks here that a given parent exists; the wait above
      // has already failed for a missing one.
      var url := ItemUrl(tree.items, project, parentTempId);
      var data := Assign(map["start_time" := JNum(now)], rq)["launch_id" := launch.realId];
      s, call := CreateItem(tempId, parentId, Call(Create, url, Fields(data)), reply);
    }

    /** The create request of startTestItem and its settlement. */
    method CreateItem(tempId: string, parentId: string, c: Call, reply: Reply)
      returns (s: Settlement, call: Option<Call>)
      requires Valid() && tempId in tree.items && parentId in tree.items
      modifies tree
      ensures Valid()
      ensures Step(s, call, tree.items) == ItemCreated(old(tree.items), tempId, parentId, c, reply)
    {
      // The record has been active since the task began.
      var _, _ := tree.AddItem(Obj(tree.items[tempId]), parentId);
      call := Some(c);
      var item := tree.items[tempId];
      match reply {
        case Success(rid) =>
          item := item.(active := false, realId := JStr(rid));
          s := Resolved(Response(JStr(rid)));
        case Failure(e) =>
          item := item.(active := false);
          s := Rejected(e);
      }
      tree.items := tree.items[tempId := item];
    }

    method FinishTestItemPromiseStart(id: string, data: map<string, Json>, reply: Reply)
      returns (s: Settlement, call: Option<Call>)
      requires Valid() && id in tree.items
      modifies tree
      ensures Valid()
      ensures Step(s, call, tree.items) == FinishTestItemPromiseStartSpec(old(tree.items), project, id, data, reply)
    {
      var item := tree.items[id];
      var url := JoinPath([project, "item", JoinText(item.realId)]);
      // Active while the call is in flight; no other task runs meanwhile,
      // so only the idle record is written back once the call has settled.
      item := item.(active := true);
      call := Some(Call(Update, url, Fields(data)));
      item := item.(active := false);
      tree.items := tree.items[id := item];
      match reply {
        case Success(_) =>
          tree.RemoveAllChildren(id);
          s := Resolved(Undefined);
        case Failure(e) =>
          s := Rejected(e);
      }
    }

    /** The synchronous part of finishTestItem: the record is looked up when
      the call is made, and for an unknown id setting `promise` on undefined
      throws. The task already queued by then only rejects with
      'Item "<id>" not found' (FinishTestItemTask), and the tree does not
      change. */
    method FinishTestItem(id: string) returns (r: Result<(), string>)
      requires Valid()
      ensures r.Ok? <==> id in tree.items
      ensures r.Err? ==> r.error == NoPromiseHolder
    {
      if id !in tree.items {
        return Err(NoPromiseHolder);
      }
      r := Ok(());
    }

    method FinishTestItemTask(id: string, rq: map<string, Json>, now: int, reply: Reply)
      returns (s: Settlement, call: Option<Call>)
      requires Valid()
      modifies tree
      ensures Valid()
      ensures Step(s, call, tree.items) == FinishTestItemSpec(old(tree.items), project, id, rq, now, reply)
    {
      var waited := WaitForItemCompleted(tree.items, id);
      if waited.Err? {
        return Rejected(waited.error), None;
      }
      // The record is claimed (active) and then marked as sent; nothing
      // reads the tree in between, so it is written back once.
      var item := tree.items[id].(active := true);
      var data := Assign(FinishItemDefaults(now), rq);
      item := item.(finishSend := true);
      tree.items := tree.items[id := item];
      var childrenWaited := WaitForItemChildrenCompleted(tree.items, id);
      if childrenWaited.Err? {
        return Rejected(childrenWaited.error), None;
      }
      s, call := FinishTestItemPromiseStart(id, data, reply);
    }

    /** The synchronous part of saveLog: a new active log record stored and
      linked under `itemId`. An unknown item makes the call throw after the
      record has been stored; `logId` is the stored record's id either way. */
    method SaveLog(itemId: string) returns (r: Result<string, TreeError>, logId: string)
      requires Valid()
      modifies tree
      ensures Valid()
      ensures logId != "" && logId !in old(tree.items) && logId != itemId
      ensures var stored := old(tree.items)[logId := NewItem().(id := logId)];
              && (itemId == "" ==> r == Ok(logId) && tree.items == stored)
              && (itemId in old(tree.items) ==> r == Ok(logId) && tree.items == Linked(stored, itemId, logId))
              && (itemId != "" && itemId !in old(tree.items) ==>
                    r == Err(NoSuchParent(itemId)) && tree.items == stored)
    {
      var added, id := tree.AddItem(Obj(NewItem()), itemId);
      logId := id;
      r := if added.Ok? then Ok(id) else Err(added.error);
    }

    /** sendLog: the log entry with its defaults, and the synchronous part of
      saveLog; the entry is what the queued part will send. */
    method SendLog(itemId: string, rq: map<string, Json>, now: int, file: Option<File>)
      returns (r: Result<string, TreeError>, logId: string, req: LogRequest)
      requires Valid()
      modifies tree
      ensures Valid()
      ensures req == LogRequest(SendLogData(rq, now), file)
      ensures logId != "" && logId !in old(tree.items) && logId != itemId
      ensures var stored := old(tree.items)[logId := NewItem().(id := logId)];
              tree.items == (if itemId != "" && itemId in old(tree.items) then Linked(stored, itemId, logId) else stored)
      ensures r.Ok? <==> itemId == "" || itemId in old(tree.items)
    {
      req := LogRequest(SendLogData(rq, now), file);
      r, logId := SaveLog(itemId);
    }

    method SaveLogTask(logId: string, itemId: string, req: LogRequest, reply: Reply)
      returns (s: Settlement, call: Option<Call>)
      requires Valid() && logId in tree.items
      modifies tree
      ensures Valid()
      ensures Step(s, call, tree.items) == SaveLogTaskSpec(old(tree.items), project, logId, itemId, req, reply)
    {
      var waited := WaitForItemCompleted(tree.items, itemId);
      if waited.Err? {
        return Rejected(waited.error), None;
      }
      tree.items := tree.items[logId := tree.items[logId].(active := true)];
      var _, _ := tree.AddItem(Obj(tree.items[logId]), itemId);
      // The source checks here that the item exists; the wait above has
      // already failed for a missing one.
      var item := tree.items[itemId];
      call := Some(LogCall(project, req, item.realId));
      var entry := tree.items[logId];
      match reply {
        case Success(rid) =>
          entry := entry.(finishSend := true, active := false);
          s := Resolved(Response(JStr(rid)));
        case Failure(_) =>
          if req.file.Some? {
            entry := entry.(finishSend := true, active := false);
          } else {
            entry := entry.(active := false);
          }
          s := Resolved(Undefined);
      }
      tree.items := tree.items[logId := entry];
    }
  }
}

=== FILE: flat_tree.dfy ===
/** The flat item tree of lib/flatTree.js: one dictionary from temporary id
    to record, parent/child relations kept as ordered lists of ids inside the
    records. Records are values here; the dictionary is a `map` field that
    the methods reassign. */
module FlatTree {
  import opened Base

  /** A launch, test item or log record. `id` is "" until the tree assigns
      one; `realId` is null until the remote service has answered. */
  datatype Item = Item(
    id: string,
    realId: Json,
    children: seq<string>,
    finishSend: bool,
    active: bool,
    kind: Option<Json>)

  /** What a caller can pass where the tree expects an item: a falsy value
      (undefined, null, ...), a truthy non-object (a string, a number, ...),
      or an object. */
  datatype Arg = Falsy | Primitive | Obj(item: Item)

  /** What a caller can pass where the tree expects an id. */
  datatype Key = StrKey(s: string) | OtherKey

  datatype TreeError =
    | IdNotString
    | UndefinedItem
    | NonObjectItem
    | NotInTree
    | NoSuchParent(parentId: string)

  /** The message of the Error the source throws for each case. */
  function Message(e: TreeError): string
  {
    match e
    case IdNotString => "Id should be a string value"
    case UndefinedItem => "Cannot to add undefined item"
    case NonObjectItem => "Cannot to add a non-object item"
    case NotInTree => "Not valid object added, it should be present in tree"
    case NoSuchParent(p) => "There is no such parent element with id " + p
  }

  type Items = map<string, Item>

  /** Every record is stored under its own, non-empty id. */
  ghost predicate ValidItems(m: Items)
  {
    forall k :: k in m ==> k != "" && m[k].id == k
  }

  function Lookup(m: Items, id: string): Option<Item>
  {
    if id in m then Some(m[id]) else None
  }

  /** `ids.map(id => getItem(id))`: the record of each id, in order; None
      (undefined) for an id whose record is gone. */
  function LookupAll(m: Items, ids: seq<string>): (r: seq<Option<Item>>)
    ensures |r| == |ids|
    ensures forall i :: 0 <= i < |ids| ==> r[i] == Lookup(m, ids[i])
  {
    if ids == [] then [] else [Lookup(m, ids[0])] + LookupAll(m, ids[1..])
  }

  /** `!item.id || !this.getItem(item.id)` is false: the item is in the tree. */
  predicate Stored(m: Items, item: Item)
  {
    item.id != "" && item.id in m
  }

  /** `parentItem.children.push(child)`: appends at the end, keeps
      duplicates, and changes no other record or field. */
  function Linked(m: Items, parent: string, child: string): (r: Items)
    requires parent in m
    ensures r.Keys == m.Keys
    ensures r[parent] == m[parent].(children := m[parent].children + [child])
    ensures forall k :: k in m && k != parent ==> r[k] == m[k]
  {
    m[parent := m[parent].(children := m[parent].children + [child])]
  }

  /** The `if (parentId) { ... }` block shared by addItem and addChild:
      no parent id links nothing, an unknown one fails (None). */
  function LinkUnder(m: Items, parentId: string, child: string): Option<Items>
  {
    if parentId == "" then Some(m)
    else if parentId in m then Some(Linked(m, parentId, child))
    else None
  }

  /** The dictionary after removeAllChildren(id): every listed child's record
      deleted, the list emptied, everything else (grandchildren included)
      untouched. */
  function Pruned(m: Items, id: string): (r: Items)
    ensures r.Keys <= m.Keys
    ensures id in m ==> forall c :: c in m[id].children ==> c !in r
    ensures forall k :: k in m && k != id && (id !in m || k !in m[id].children) ==> k in r && r[k] == m[k]
    ensures id in r ==> r[id] == m[id].(children := [])
  {
    if id !in m then m
    else
      var rest := m - (set c | c in m[id].children);
      if id in rest then rest[id := rest[id].(children := [])] else rest
  }

  /** A length no string of `used` exceeds. */
  ghost function MaxLen(used: set<string>): (n: nat)
    ensures forall s :: s in used ==> |s| <= n
    decreases used
  {
    if used == {} then 0
    else
      var s :| s in used;
      var rest := MaxLen(used - {s});
      if |s| < rest then rest else |s|
  }

  /** There is always a non-empty id outside any finite set of ids, so id
      allocation never runs dry. */
  lemma FreshIdExists(used: set<string>)
    ensures exists id :: id != "" && id !in used
  {
    var id := seq(MaxLen(used) + 1, _ => 'u');
    assert id != "" && id !in used;
  }

  /** Linking twice gives two entries. */
  lemma LinkTwiceKeepsBoth(m: Items, parent: string, child: string)
    requires parent in m
    ensures Linked(Linked(m, parent, child), parent, child)[parent].children ==
            m[parent].children + [child, child]
  {
  }

  /** Children come back in the order they were linked. */
  lemma {:induction false} LookupAllAppend(m: Items, ids: seq<string>, c: string)
    ensures LookupAll(m, ids + [c]) == LookupAll(m, ids) + [Lookup(m, c)]
  {
    var left, right := LookupAll(m, ids + [c]), LookupAll(m, ids) + [Lookup(m, c)];
    assert |left| == |right|;
    forall i | 0 <= i < |left| ensures left[i] == right[i] {
      assert (ids + [c])[i] == if i < |ids| then ids[i] else c;
    }
  }

  class Tree {
    var items: Items

    ghost predicate Valid()
      reads this
    {
      ValidItems(items)
    }

    constructor ()
      ensures Valid() && items == map[]
    {
      items := map[];
    }

    /** The stored record, or None (undefined); a non-string id is refused. */
    function GetItem(key: Key): (r: Result<Option<Item>, TreeError>)
      reads this
      ensures r.Err? <==> key.OtherKey?
      ensures r.Err? ==> r.error == IdNotString
      ensures key.StrKey? ==> (r.value.Some? <==> key.s in items)
      ensures key.StrKey? && key.s in items ==> r.value.value == items[key.s]
      ensures Valid() && r.Ok? && r.value.Some? ==> r.value.value.id == key.s
    {
      match key
      case OtherKey => Err(IdNotString)
      case StrKey(s) => Ok(Lookup(items, s))
    }

    /** The records of the item's children in insertion order; empty when
      the item is missing or childless. */
    function GetChildren(itemId: string): (r: seq<Option<Item>>)
      reads this
      ensures itemId !in items ==> r == []
      ensures itemId in items ==> |r| == |items[itemId].children|
      ensures itemId in items ==>
                forall i :: 0 <= i < |r| ==> r[i] == Lookup(items, items[itemId].children[i])
    {
      if itemId !in items then [] else LookupAll(items, items[itemId].children)
    }

    /** Links an item that is already stored under `parentId` ("" links
      nothing). Every error leaves the tree as it was. */
    method AddChild(arg: Arg, parentId: string) returns (r: Result<(), TreeError>)
      requires Valid()
      modifies this
      ensures Valid()
      ensures arg.Falsy? ==> r == Err(UndefinedItem)
      ensures arg.Primitive? ==> r == Err(NonObjectItem)
      ensures arg.Obj? && !Stored(old(items), arg.item) ==> r == Err(NotInTree)
      ensures arg.Obj? && Stored(old(items), arg.item) ==>
                match LinkUnder(old(items), parentId, arg.item.id)
                case Some(m) => r == Ok(()) && items == m
                case None => r == Err(NoSuchParent(parentId))
      ensures r.Err? ==> items == old(items)
    {
      if arg.Falsy? {
        return Err(UndefinedItem);
      }
      if arg.Primitive? {
        return Err(NonObjectItem);
      }
      var item := arg.item;
      if item.id == "" || item.id !in items {
        return Err(NotInTree);
      }
      if parentId != "" {
        if parentId !in items {
          return Err(NoSuchParent(parentId));
        }
        items := Linked(items, parentId, item.id);
      }
      r := Ok(());
    }

    /** Stores an item that is not in the tree yet under a fresh id with an
      empty child list, then links it under `parentId`. An item already in
      the tree keeps its id and record and is only linked. `id` is the id
      the item holds afterwards. A missing parent is found only after a
      fresh item has been stored, and the stored record stays. */
    method AddItem(arg: Arg, parentId: string) returns (r: Result<Item, TreeError>, id: string)
      requires Valid()
      modifies this
      ensures Valid()
      ensures arg.Falsy? ==> r == Err(UndefinedItem) && id == "" && items == old(items)
      ensures arg.Primitive? ==> r == Err(NonObjectItem) && id == "" && items == old(items)
      ensures arg.Obj? && Stored(old(items), arg.item) ==>
                id == arg.item.id &&
                match LinkUnder(old(items), parentId, id)
                case Some(m) => r == Ok(arg.item) && items == m
                case None => r == Err(NoSuchParent(parentId)) && items == old(items)
      ensures arg.Obj? && !Stored(old(items), arg.item) ==>
                id != "" && id !in old(items) && id != parentId &&
                var stored := arg.item.(id := id, children := []);
                match LinkUnder(old(items)[id := stored], parentId, id)
                case Some(m) => r == Ok(stored) && items == m
                case None => r == Err(NoSuchParent(parentId)) && items == old(items)[id := stored]
    {
      if arg.Falsy? {
        return Err(UndefinedItem), "";
      }
      if arg.Primitive? {
        return Err(NonObjectItem), "";
      }
      var item := arg.item;
      if item.id == "" || item.id !in items {
        FreshIdExists(items.Keys + {parentId});
        var newId :| newId != "" && newId !in items && newId != parentId;
        item := item.(id := newId, children := []);
        items := items[newId := item];
      }
      id := item.id;
      if parentId != "" {
        if parentId !in items {
          return Err(NoSuchParent(parentId)), id;
        }
        items := Linked(items, parentId, id);
      }
      r := Ok(item);
    }

    /** Deletes the record of every child listed under `itemId`, then
      empties the list. An unknown id changes nothing. */
    method RemoveAllChildren(itemId: string)
      requires Valid()
      modifies this
      ensures Valid()
      ensures items == Pruned(old(items), itemId)
    {
      if itemId in items {
        var kids := items[itemId].children;
        var i := 0;
        while i < |kids|
          invariant 0 <= i <= |kids|
          invariant forall k :: k in items <==> k in old(items) && k !in kids[..i]
          invariant forall k :: k in items ==> items[k] == old(items)[k]
        {
          assert kids[..i + 1] == kids[..i] + [kids[i]];
          items := items - {kids[i]};
          i := i + 1;
        }
        assert kids[..i] == kids;
        if itemId in items {
          items := items[itemId := items[itemId].(children := [])];
        }
      }
    }
  }
}

=== FILE: helpers.dfy ===
/** The two pure helpers of lib/helpers.js: the name formatter and the
    polling wait. The sleep between polls is dropped: the predicate is given
    as the sequence of its successive answers, `condition(k)` being the
    answer of the k-th evaluation (counting from 0). */
module Helpers {
  import opened Base

  const MinNameLength: nat := 3
  const MaxNameLength: nat := 256

  const WaitFailure: string := "Failed to wait for condition to be fullfiled"

  /** A UTF-16 code unit. A JavaScript string is a sequence of these, and
      `length` and `slice` count them. */
  newtype CodeUnit = x: int | 0 <= x < 0x1_0000

  type JsString = seq<CodeUnit>

  const Dot: CodeUnit := 0x2E

  /** The code units of one character: itself below U+10000, a surrogate
      pair above. */
  function Utf16Char(c: char): (u: JsString)
    ensures |u| == (if c as int < 0x1_0000 then 1 else 2)
  {
    var n := c as int;
    if n < 0x1_0000 then [n as CodeUnit]
    else [(0xD800 + (n - 0x1_0000) / 0x400) as CodeUnit, (0xDC00 + (n - 0x1_0000) % 0x400) as CodeUnit]
  }

  /** The JavaScript string holding the characters of `s`. */
  function Utf16(s: string): (u: JsString)
    ensures |s| <= |u| <= 2 * |s|
  {
    if s == [] then [] else Utf16Char(s[0]) + Utf16(s[1..])
  }

  /** `s.slice(-n)`: the last `n` code units, or all of `s` when it is shorter. */
  function LastUnits(s: JsString, n: nat): (r: JsString)
  {
    if |s| <= n then s else s[|s| - n..]
  }

  /** Pads a name with '.' up to three code units, then keeps its last 256. */
  function FormatName(name: JsString): (r: JsString)
    ensures MinNameLength <= |r| <= MaxNameLength
    ensures |name| < MinNameLength ==>
              |r| == MinNameLength && r[..|name|] == name &&
              forall i :: |name| <= i < |r| ==> r[i] == Dot
    ensures MinNameLength <= |name| <= MaxNameLength ==> r == name
    ensures MaxNameLength < |name| ==> r == name[|name| - MaxNameLength..]
  {
    var padded := if |name| < MinNameLength then name + seq(MinNameLength - |name|, _ => Dot) else name;
    LastUnits(padded, MaxNameLength)
  }

  /** Formatting a formatted name changes nothing. */
  lemma FormatNameIdempotent(name: JsString)
    ensures FormatName(FormatName(name)) == FormatName(name)
  {
  }

  /** A character outside the Basic Multilingual Plane is two code units
      long, so a name made of one such character gets a single '.'. */
  lemma AstralCharPadsOnce(c: char)
    requires 0x1_0000 <= c as int
    ensures FormatName(Utf16([c])) == Utf16([c]) + [Dot]
  {
    assert Utf16([c]) == Utf16Char(c);
  }

  /** How many evaluations a budget of `attempt` allows: the check
      `attempt < 0` comes before each evaluation, so `attempt + 1` of them. */
  function Budget(attempt: int): nat
  {
    if attempt < 0 then 0 else attempt + 1
  }

  /** The settled promise of a wait, with the number of predicate evaluations made. */
  datatype Waited = Waited(outcome: Result<bool, string>, evaluations: nat)

  /** The wait from the `start`-th evaluation on, with `attempt` left:
      polls `condition` until it answers true or the budget runs out. On
      success the promise resolves with `false`, whatever the predicate said. */
  function WaitFrom(condition: nat -> bool, start: nat, attempt: int): (w: Waited)
    ensures w.evaluations <= Budget(attempt)
    ensures w.outcome.Ok? ==>
              w.outcome.value == false && 0 < w.evaluations &&
              condition(start + w.evaluations - 1) &&
              forall k :: start <= k < start + w.evaluations - 1 ==> !condition(k)
    ensures w.outcome.Err? ==>
              w.outcome.error == WaitFailure && w.evaluations == Budget(attempt) &&
              forall k :: start <= k < start + Budget(attempt) ==> !condition(k)
    decreases Budget(attempt)
  {
    if attempt < 0 then Waited(Err(WaitFailure), 0)
    else if condition(start) then Waited(Ok(false), 1)
    else
      var rest := WaitFrom(condition, start + 1, attempt - 1);
      Waited(rest.outcome, rest.evaluations + 1)
  }

  /** `waitForCondition(condition, timeout, attempt)`: at most `attempt + 1`
      evaluations; it resolves right after the first true answer and fails
      once every evaluation of the budget has answered false. */
  function WaitForCondition(condition: nat -> bool, attempt: int): (w: Waited)
    ensures w.evaluations <= Budget(attempt)
    ensures w.outcome.Ok? ==>
              w.outcome.value == false && 0 < w.evaluations &&
              condition(w.evaluations - 1) &&
              forall k :: 0 <= k < w.evaluations - 1 ==> !condition(k)
    ensures w.outcome.Err? ==>
              w.outcome.error == WaitFailure && w.evaluations == Budget(attempt) &&
              forall k :: 0 <= k < Budget(attempt) ==> !condition(k)
  {
    WaitFrom(condition, 0, attempt)
  }

  /** A wait resolves exactly when one of the first `Budget(attempt)`
      evaluations answers true. */
  lemma WaitSucceedsIffSomeEvaluationHolds(condition: nat -> bool, attempt: int)
    ensures WaitForCondition(condition, attempt).outcome.Ok? <==>
              exists k :: 0 <= k < Budget(attempt) && condition(k)
  {
    var w := WaitForCondition(condition, attempt);
    if w.outcome.Ok? {
      assert 0 <= w.evaluations - 1 < Budget(attempt) && condition(w.evaluations - 1);
    }
  }

  /** The polling loop for a predicate whose answer never changes: it
      resolves on the first evaluation when the answer is true, and fails
      once the whole budget is spent otherwise. */
  function SteadyWait(holds: bool, attempt: int): (w: Waited)
    ensures w.outcome.Ok? <==> holds && 0 <= attempt
    ensures w.outcome.Ok? ==> w.outcome.value == false && w.evaluations == 1
    ensures w.outcome.Err? ==> w.outcome == Err(WaitFailure) && w.evaluations == Budget(attempt)
    decreases Budget(attempt)
  {
    if attempt < 0 then Waited(Err(WaitFailure), 0)
    else if holds then Waited(Ok(false), 1)
    else
      var rest := SteadyWait(holds, attempt - 1);
      Waited(rest.outcome, rest.evaluations + 1)
  }

  /** SteadyWait is the wait, from any evaluation on, on a predicate that
      always gives the same answer. */
  lemma {:induction false} SteadyWaitFrom(condition: nat -> bool, holds: bool, start: nat, attempt: int)
    requires forall k: nat :: condition(k) == holds
    ensures SteadyWait(holds, attempt) == WaitFrom(condition, start, attempt)
    decreases Budget(attempt)
  {
    if 0 <= attempt && !holds {
      SteadyWaitFrom(condition, holds, start + 1, attempt - 1);
    }
  }

  /** SteadyWait is WaitForCondition on any predicate that always gives the
      same answer. */
  lemma SteadyWaitAgrees(condition: nat -> bool, holds: bool, attempt: int)
    requires forall k: nat :: condition(k) == holds
    ensures SteadyWait(holds, attempt) == WaitForCondition(condition, attempt)
  {
    SteadyWaitFrom(condition, holds, 0, attempt);
  }

  /** On a predicate whose answer never changes, the wait resolves after
      one evaluation when the answer is true, and otherwise fails after
      evaluating it once for each attempt of the budget. */
  lemma WaitOnSteadyCondition(condition: nat -> bool, holds: bool, attempt: int)
    requires forall k: nat :: condition(k) == holds
    ensures var w := WaitForCondition(condition, attempt);
            (w.outcome.Ok? <==> holds && 0 <= attempt) &&
            (w.outcome.Ok? ==> w.evaluations == 1) &&
            (w.outcome.Err? ==> w.outcome == Err(WaitFailure) && w.evaluations == Budget(attempt))
  {
    SteadyWaitAgrees(condition, holds, attempt);
  }
}

=== FILE: multipart.dfy ===
/** The multipart/form-data body that carries a log entry with an
    attachment (RFC 7578; delimiter lines as in section 5.1.1 of RFC 2046).
    The JSON text of the log entry, the decoded attachment and the UTF-8
    bytes of the boundary, file name and media type are inputs. */
module Multipart {
  import opened Base

  /** Bytes of a string of ASCII characters. */
  function Ascii(s: string): (b: seq<byte>)
    ensures |b| == |s|
  {
    seq(|s|, i requires 0 <= i < |s| => (s[i] as int) % 256)
  }

  const CRLF: seq<byte> := [13, 10]

  /** `--` followed by the boundary. */
  function Delimiter(boundary: seq<byte>): seq<byte>
  {
    Ascii("--") + boundary
  }

  /** The two header lines of the JSON part, without their final line break. */
  function JsonHeaders(): seq<byte>
  {
    Ascii("Content-Disposition: form-data; name=\"json_request_part\"") + CRLF +
    Ascii("Content-Type: application/json")
  }

  /** Delimiter line and headers of the JSON part, followed by the line
      break that ends the headers, the blank line, and one more line break
      that becomes the first two bytes of the part's body. */
  function JsonPartHead(boundary: seq<byte>): seq<byte>
  {
    (Delimiter(boundary) + CRLF) + JsonHeaders() + (CRLF + CRLF + CRLF)
  }

  /** The header lines of the file part, then the blank line. */
  function FileHeaders(name: seq<byte>, mime: seq<byte>): seq<byte>
  {
    Ascii("Content-Disposition: form-data; name=\"file\"; filename=\"") + name + Ascii("\"") + CRLF +
    Ascii("Content-Type: ") + mime + CRLF + CRLF
  }

  /** Delimiter line and headers of the file part. */
  function FilePartHead(boundary: seq<byte>, name: seq<byte>, mime: seq<byte>): seq<byte>
  {
    (Delimiter(boundary) + CRLF) + FileHeaders(name, mime)
  }

  /** The close delimiter on its own line. */
  function CloseDelimiter(boundary: seq<byte>): seq<byte>
  {
    CRLF + Delimiter(boundary) + Ascii("--") + CRLF
  }

  /** The first buffer: JSON part headers, the JSON text and a line break. */
  function JsonPart(boundary: seq<byte>, json: seq<byte>): seq<byte>
  {
    JsonPartHead(boundary) + json + CRLF
  }

  /** `Buffer.concat` of the four buffers the source builds. */
  function BuildMultiPartStream(json: seq<byte>, name: seq<byte>, mime: seq<byte>,
                                content: seq<byte>, boundary: seq<byte>): (r: seq<byte>)
    ensures |r| == ContentStart(json, name, mime, boundary) + |content| + |boundary| + 8
  {
    JsonPart(boundary, json) + FilePartHead(boundary, name, mime) + content + CloseDelimiter(boundary)
  }

  /** Where the JSON text starts. */
  function JsonStart(boundary: seq<byte>): nat
  {
    |JsonPartHead(boundary)|
  }

  /** Where the attachment bytes start. */
  function ContentStart(json: seq<byte>, name: seq<byte>, mime: seq<byte>, boundary: seq<byte>): nat
  {
    |JsonPartHead(boundary)| + |json| + 2 + |FilePartHead(boundary, name, mime)|
  }

  /** Slicing a concatenation of three pieces gives back each piece. */
  lemma Pieces(p: seq<byte>, q: seq<byte>, s: seq<byte>)
    ensures (p + q + s)[..|p|] == p
    ensures (p + q + s)[|p|..|p| + |q|] == q
    ensures (p + q + s)[|p| + |q|..] == s
  {
  }

  /** Slicing a concatenation of four pieces gives back the first three. */
  lemma Pieces4(a: seq<byte>, b: seq<byte>, c: seq<byte>, d: seq<byte>)
    ensures (a + b + c + d)[..|a|] == a
    ensures (a + b + c + d)[|a|..|a| + |b|] == b
    ensures (a + b + c + d)[|a| + |b|..|a| + |b| + |c|] == c
  {
    assert a + b + c + d == a + b + (c + d);
    Pieces(a, b, c + d);
    assert (c + d)[..|c|] == c;
  }

  /** The body opens with the delimiter line of the JSON part, then its
      Content-Disposition and Content-Type header lines, which end with three
      line breaks: one ends the last header, one is the blank line, the extra
      one belongs to the body. */
  lemma JsonHeadLayout(json: seq<byte>, name: seq<byte>, mime: seq<byte>,
                       content: seq<byte>, boundary: seq<byte>)
    ensures var r := BuildMultiPartStream(json, name, mime, content, boundary);
            var j := JsonStart(boundary);
            |boundary| + 10 <= j <= |r| &&
            r[..|boundary| + 4] == Delimiter(boundary) + CRLF &&
            r[|boundary| + 4..j - 6] == JsonHeaders() &&
            r[j - 6..j] == CRLF + CRLF + CRLF
  {
    var open, headers, breaks := Delimiter(boundary) + CRLF, JsonHeaders(), CRLF + CRLF + CRLF;
    var rest := json + CRLF + FilePartHead(boundary, name, mime) + content + CloseDelimiter(boundary);
    assert BuildMultiPartStream(json, name, mime, content, boundary) == open + headers + breaks + rest;
    Pieces4(open, headers, breaks, rest);
  }

  /** In `h + x + y + t`, `x` and `y` sit right after `h`, and `t` after them. */
  lemma Framed(h: seq<byte>, x: seq<byte>, y: seq<byte>, t: seq<byte>, n: nat)
    requires n <= |t|
    ensures var s := h + x + y + t;
            |s| == |h| + |x| + |y| + |t| &&
            s[|h|..|h| + |x|] == x &&
            s[|h| + |x|..|h| + |x| + |y|] == y &&
            s[|h| + |x| + |y|..|h| + |x| + |y| + n] == t[..n]
  {
    var s := h + x + y + t;
    Pieces4(h, x, y, t);
    assert s[|h| + |x| + |y|..] == t;
  }

  /** The file part opens with its delimiter line. */
  lemma FilePartOpens(boundary: seq<byte>, name: seq<byte>, mime: seq<byte>, tail: seq<byte>)
    ensures var part := FilePartHead(boundary, name, mime) + tail;
            |boundary| + 4 <= |part| && part[..|boundary| + 4] == Delimiter(boundary) + CRLF
  {
    var open := Delimiter(boundary) + CRLF;
    assert FilePartHead(boundary, name, mime) + tail == open + (FileHeaders(name, mime) + tail);
  }

  /** The stream regrouped around the JSON text. */
  lemma StreamAfterJson(json: seq<byte>, name: seq<byte>, mime: seq<byte>,
                        content: seq<byte>, boundary: seq<byte>)
    ensures BuildMultiPartStream(json, name, mime, content, boundary) ==
            JsonPartHead(boundary) + json + CRLF +
            (FilePartHead(boundary, name, mime) + (content + CloseDelimiter(boundary)))
  {
  }

  /** The JSON text sits unchanged at JsonStart, is followed by a line
      break, and then by the file part's delimiter line. */
  lemma JsonTextLayout(json: seq<byte>, name: seq<byte>, mime: seq<byte>,
                       content: seq<byte>, boundary: seq<byte>)
    ensures var r := BuildMultiPartStream(json, name, mime, content, boundary);
            var j := JsonStart(boundary);
            j + |json| + 2 + |boundary| + 4 <= |r| &&
            r[j..j + |json|] == json &&
            r[j + |json|..j + |json| + 2] == CRLF &&
            r[j + |json| + 2..j + |json| + 2 + |boundary| + 4] == Delimiter(boundary) + CRLF
  {
    var tail := content + CloseDelimiter(boundary);
    var rest := FilePartHead(boundary, name, mime) + tail;
    StreamAfterJson(json, name, mime, content, boundary);
    FilePartOpens(boundary, name, mime, tail);
    Framed(JsonPartHead(boundary), json, CRLF, rest, |boundary| + 4);
  }

  /** The file part's headers end with a blank line. */
  lemma FilePartHeadEnds(boundary: seq<byte>, name: seq<byte>, mime: seq<byte>)
    ensures var head := FilePartHead(boundary, name, mime);
            4 <= |head| && head[|head| - 4..] == CRLF + CRLF
  {
    var lines := (Delimiter(boundary) + CRLF) +
                 Ascii("Content-Disposition: form-data; name=\"file\"; filename=\"") + name + Ascii("\"") + CRLF +
                 Ascii("Content-Type: ") + mime;
    assert FilePartHead(boundary, name, mime) == lines + (CRLF + CRLF);
  }

  /** The file part's headers sit between the JSON part and the attachment,
      and end with a blank line. */
  lemma FilePartLayout(json: seq<byte>, name: seq<byte>, mime: seq<byte>,
                       content: seq<byte>, boundary: seq<byte>)
    ensures var r := BuildMultiPartStream(json, name, mime, content, boundary);
            var k := JsonStart(boundary) + |json| + 2;
            var c := ContentStart(json, name, mime, boundary);
            k <= c <= |r| &&
            r[k..c] == FilePartHead(boundary, name, mime) &&
            r[c - 4..c] == CRLF + CRLF
  {
    var head := FilePartHead(boundary, name, mime);
    var r := BuildMultiPartStream(json, name, mime, content, boundary);
    var k := JsonStart(boundary) + |json| + 2;
    StreamAfterJson(json, name, mime, content, boundary);
    Framed(JsonPartHead(boundary) + json, CRLF, head, content + CloseDelimiter(boundary), 0);
    FilePartHeadEnds(boundary, name, mime);
    assert r[k + |head| - 4..k + |head|] == r[k..k + |head|][|head| - 4..];
  }

  /** The attachment bytes appear unchanged, followed only by the close
      delimiter line; the total size is the sum of the parts. */
  lemma ContentLayout(json: seq<byte>, name: seq<byte>, mime: seq<byte>,
                      content: seq<byte>, boundary: seq<byte>)
    ensures var r := BuildMultiPartStream(json, name, mime, content, boundary);
            var c := ContentStart(json, name, mime, boundary);
            |r| == c + |content| + |boundary| + 8 &&
            r[c..c + |content|] == content &&
            r[c + |content|..] == CRLF + Delimiter(boundary) + Ascii("--") + CRLF
  {
    var front := JsonPartHead(boundary) + json + CRLF + FilePartHead(boundary, name, mime);
    assert |front| == ContentStart(json, name, mime, boundary);
    Pieces(front, content, CloseDelimiter(boundary));
  }
}

=== FILE: urls.dfy ===
/** How the client turns values into the paths of its remote calls:
    `[a, b, c].join('/')`, and the string forms of a value that a template
    literal and `Array.prototype.join` produce. */
module Urls {
  import opened Base

  /** `segments.join('/')`. */
  function JoinPath(segments: seq<string>): string
  {
    if |segments| == 0 then ""
    else if |segments| == 1 then segments[0]
    else segments[0] + "/" + JoinPath(segments[1..])
  }

  /** Position of the first '/' in `s`. */
  function FirstSlash(s: string): (i: nat)
    requires '/' in s
    ensures i < |s| && s[i] == '/'
    ensures forall j :: 0 <= j < i ==> s[j] != '/'
  {
    if s[0] == '/' then 0 else 1 + FirstSlash(s[1..])
  }

  /** `s.split('/')`: the inverse of JoinPath on segments without '/'. */
  function SplitPath(s: string): (parts: seq<string>)
    ensures 1 <= |parts|
    decreases |s|
  {
    if '/' !in s then [s]
    else
      var i := FirstSlash(s);
      [s[..i]] + SplitPath(s[i + 1..])
  }

  predicate NoSlash(segments: seq<string>)
  {
    forall i :: 0 <= i < |segments| ==> '/' !in segments[i]
  }

  lemma FirstSlashAfter(a: string, b: string)
    requires '/' !in a
    ensures '/' in a + "/" + b && FirstSlash(a + "/" + b) == |a|
  {
    var s := a + "/" + b;
    assert s[|a|] == '/';
    assert forall j :: 0 <= j < |a| ==> s[j] == a[j];
  }

  /** Splitting a joined path gives back its segments: each value the
      client puts into a path stays one segment of it. */
  lemma {:induction false} SplitJoin(segments: seq<string>)
    requires 1 <= |segments| && NoSlash(segments)
    ensures SplitPath(JoinPath(segments)) == segments
  {
    if 1 < |segments| {
      var a, b := segments[0], JoinPath(segments[1..]);
      var s := a + "/" + b;
      assert '/' !in a;
      FirstSlashAfter(a, b);
      assert s[..|a|] == a;
      assert s[|a| + 1..] == b;
      SplitJoin(segments[1..]);
      assert segments == [a] + segments[1..];
    }
  }

  function Digit(d: nat): (c: char)
    requires d < 10
  {
    "0123456789"[d]
  }

  /** Decimal digits of a natural number. */
  function NatText(n: nat): (r: string)
    ensures 1 <= |r| && forall i :: 0 <= i < |r| ==> '0' <= r[i] <= '9'
    decreases n
  {
    if n < 10 then [Digit(n)] else NatText(n / 10) + [Digit(n % 10)]
  }

  /** `String(v)`, which a template literal such as `${v}` uses: a string
      is itself, null is "null", a boolean "true" or "false", a number its
      decimal digits with a leading '-' when negative, an object
      "[object Object]"; only the empty string renders empty. */
  function Text(v: Json): (r: string)
    ensures v.JStr? ==> r == v.s
    ensures v.JNull? ==> r == "null"
    ensures v.JBool? ==> r == (if v.b then "true" else "false")
    ensures v.JNum? && 0 <= v.n ==> r == NatText(v.n)
    ensures v.JNum? && v.n < 0 ==> |r| == 1 + |NatText(-v.n)| && r[0] == '-' && r[1..] == NatText(-v.n)
    ensures v.JObj? ==> r == "[object Object]"
    ensures r == "" <==> v == JStr("")
  {
    match v
    case JNull => "null"
    case JBool(b) => if b then "true" else "false"
    case JNum(n) => if n < 0 then "-" + NatText(-n) else NatText(n)
    case JStr(s) => s
    case JObj(_) => "[object Object]"
  }

  /** The string `Array.prototype.join` makes of an element: null becomes
      the empty string, anything else its `String(v)`. */
  function JoinText(v: Json): (r: string)
    ensures r == "" <==> v.JNull? || v == JStr("")
    ensures !v.JNull? ==> r == Text(v)
  {
    if v.JNull? then "" else Text(v)
  }

  /** Only a string holding '/' renders with a '/'. */
  lemma TextNoSlash(v: Json)
    requires !(v.JStr? && '/' in v.s)
    ensures '/' !in Text(v) && '/' !in JoinText(v)
  {
    if v.JNum? {
      var digits := NatText(if v.n < 0 then -v.n else v.n);
      assert '/' !in digits;
    }
  }
}
